=== FILE: README.md ===
# pyArduino host link and path utilities, modelled in Dafny

This project models the host side of a self-driving-car Python application in Dafny. It covers two parts:

- **The Arduino serial link** (`arduino/pyArduino.py`):
  - the `@keyword%arg%...$!` command frame;
  - port discovery through the `version` handshake;
  - the board constructor;
  - the five RC channel reads and `pulseIn`, with their `-1` sentinel;
  - `close`;
  - the `Servos` pin-to-slot map, with its resend-until-numeric attach loop;
  - the `SoftwareSerial` connected flag.
- **The utility code:**
  - the numeric helpers `chop_value`, `map_function` and `moving_avg` (`utils/numeric_functions.py`);
  - the path/configuration bookkeeping of `userPath` (`utils/guiUtils.py`) and `UserPath` (`utils/folder_functions.py`).

The serial connection is a pure value `Port`. It records:

- whether the port is open;
- whether writes to it raise;
- the frames written so far;
- the raw lines the device will answer with, one per `readline`;
- the number of DTR reset pulses issued.

An exhausted reply queue is a read timeout, which yields the empty line. Python exceptions are `Err` results. File dialogs, `os.path`, `glob`, Python's `float()`/`int()` on reply bytes, and which handshake replies UTF-8 decodes are inputs to the model: an `Env` record or function parameters.

The two path classes are the same code under two naming conventions. Module `PathBook` models that code once, parametrised by a `Dialect`: the configuration key of the default folder, the dialog tokens its dispatch accepts, and the type string its folder actions request. Modules `GuiUtils` and `FolderFunctions` instantiate it.

Modules:

- `Common`: Option and Result.
- `Text`: lower-casing, join and split, CRLF strip, decimal rendering.
- `Frames`: the command frame.
- `Transport`: the Port record.
- `Arduino`: the board, channel reads, `pulseIn`, `close`.
- `Discovery`: `find_port` and the constructor.
- `Servos`: the servo slot map.
- `SoftSerial`: the software-serial flag.
- `Numeric`: the numeric helpers.
- `Ordering`: Python string order and sorting.
- `PathBook`, `GuiUtils`, `FolderFunctions`: the path bookkeeping.

## Model

| member | source | states |
|---|---|---|
| Frames.BuildCmdStr | arduino/pyArduino.py:46-61 | the frame starts with `@`, ends with `$!`, and is exactly four characters longer than the keyword plus the `%`-joined arguments |
| Frames.FrameFields | arduino/pyArduino.py:57-61 | splitting a frame body on `%` gives the keyword and then the arguments; a frame without arguments gives the keyword and one empty field |
| Frames.FrameRoundTrip | arduino/pyArduino.py:46-61 | parsing a built frame recovers exactly the keyword and arguments, provided none contains `%` and the arguments are not the single empty string |
| Frames.FrameHasNoLineBreak | arduino/pyArduino.py:46-61 | a frame built from parts without CR/LF contains no CR or LF |
| Frames.IntegersAreClean | arduino/pyArduino.py:51-58 | a rendered integer never contains the field separator, so numeric arguments always frame safely |
| Text.SplitJoin | arduino/pyArduino.py:58 | splitting a `%`-join of separator-free fields gives back the fields |
| Text.StripCrlfLine | arduino/pyArduino.py:115 | the CRLF strip removes exactly the line terminator from a reply line and leaves a terminator-free line unchanged |
| Text.DecimalRoundTrip | arduino/pyArduino.py:262-266 | reading back the decimal rendering of any integer, negative ones included, gives the integer |
| Text.NatToString | arduino/pyArduino.py:58 | the rendering of a natural number is a non-empty digit string whose value is that number, with no leading zero, so it is the canonical `str(n)` |
| Transport.SendBestEffort | arduino/pyArduino.py:148-152 | a swallowed write appends the frame only when the port accepts writes, and changes nothing else |
| Transport.ReadLine | arduino/pyArduino.py:153 | a read raises exactly on a closed port; otherwise it consumes one reply and yields it CRLF-stripped, or the empty line on a timeout |
| Arduino.GetVersion | arduino/pyArduino.py:108-115 | None exactly when the `version` write raises, with the port unchanged; otherwise the stripped reply, with one frame sent and one reply consumed |
| Arduino.Query | arduino/pyArduino.py:147-157 | raises exactly on a closed port; the frame is sent only if writable; one reply is consumed; the value is `float` of the reply, or -1 when `float` rejects it; servos, flag and every other port field are unchanged |
| Arduino.ReadChannel | arduino/pyArduino.py:140-251 | each channel read sends its keyword frame without arguments (e.g. `@strg%$!`), raises only on a closed port, and yields `float` of the reply, or -1 when `float` rejects it; exactly one reply is consumed and the servo map and flag are unchanged |
| Arduino.PulseIn | arduino/pyArduino.py:253-276 | `pulseIn` sends `pi` with the pin negated for `"LOW"` (nothing when the port rejects writes), raises only on a closed port, and yields `float` of the reply, or -1 when `float` rejects it; exactly one reply is consumed and the servo map and flag are unchanged |
| Arduino.WriteFailureIsSilent | arduino/pyArduino.py:148-157 | on an open port that rejects writes, a channel read still succeeds, sends nothing, and decodes the next reply |
| Arduino.SentinelIsAmbiguous | arduino/pyArduino.py:153-157 | a genuine reply `-1` and a timed-out read give the caller the same value -1 |
| Arduino.PulseInPolarity | arduino/pyArduino.py:262-266 | the firmware reads back `-pin` exactly for `"LOW"`; for a positive pin the sign carries the level; pin 0 sends the same frame for both levels |
| Arduino.CloseBoard | arduino/pyArduino.py:278-281 | after `close` the port is closed; closing a closed board changes nothing (idempotent); servos and flag are untouched |
| Discovery.FindFrom | arduino/pyArduino.py:64-105 | the found port is the first candidate that opens and answers with a non-empty reply that decodes, after only skipped ones; nothing is found iff every candidate is skipped; an exception iff a reached, non-skipped candidate crashes: AttributeError when its handshake write raises (`None.decode()`), UnicodeDecodeError when its reply is not UTF-8; rejected ports are closed after one handshake |
| Discovery.FoundAt | arduino/pyArduino.py:75-104 | when candidates `i..k-1` are all passed over and candidate `k` answers with a non-empty decodable line, discovery returns candidate `k` |
| Discovery.LaterCandidatesUntouched | arduino/pyArduino.py:75-104 | under the same conditions, appending more candidates after the enumeration does not change the outcome |
| Discovery.Connect | arduino/pyArduino.py:120-135 | an explicit connection wins and becomes the board's port (PortError when it is closed); otherwise an explicit path opens that device or raises PortError; otherwise discovery: `ValueError("Could not find port.")` iff every candidate is skipped, discovery's exception iff a candidate crashes, else the first accepted candidate's port, after its one handshake; a new board has no servos and software serial disconnected |
| Servos.FirstSlotReply | arduino/pyArduino.py:297-303 | the position of the first reply that is all digits after the CRLF strip, with no earlier such reply; None iff there is none |
| Servos.AttachSpec | arduino/pyArduino.py:295-315 | with k rejected replies: k+1 identical `sva` frames, k DTR pulses, k+1 replies consumed, the pin bound to the accepted slot with other bindings kept, and 1 returned; PortError when the write raises; Hang when no reply is ever numeric |
| Servos.Attach | arduino/pyArduino.py:295-315 | the resend loop computes exactly the closed form `AttachSpec` |
| Servos.AttachRetriesOncePerRejectedReply | arduino/pyArduino.py:297-311 | k non-numeric replies ahead of a numeric one cost exactly k resets and k+1 frames, and the slot is the numeric reply's value |
| Servos.Detach | arduino/pyArduino.py:317-325 | KeyError iff the pin is unattached; otherwise exactly that pin's binding is dropped and `svd` with its slot is sent if writable |
| Servos.DetachUndoesAttach | arduino/pyArduino.py:295-325 | detach after a successful attach removes the pin from the original map; a second detach raises KeyError |
| Servos.SlotCommand | arduino/pyArduino.py:327-339 | KeyError on an unattached pin before anything is sent; otherwise the `keyword slot value` frame is sent, raising iff the port rejects writes |
| Servos.Write | arduino/pyArduino.py:327-332 | `write` raises KeyError on an unattached pin; otherwise it sends `svw` with the pin's slot and the angle, and succeeds exactly when the port accepts writes; no reply is read, and nothing but the sent frames changes |
| Servos.WriteMicroseconds | arduino/pyArduino.py:334-339 | `writeMicroseconds` raises KeyError on an unattached pin; otherwise it sends `svwm` with the pin's slot and the pulse width, and succeeds exactly when the port accepts writes; no reply is read, and nothing but the sent frames changes |
| Servos.Read | arduino/pyArduino.py:341-356 | an attached pin is read with one best-effort `svr` and yields `int` of the next reply; an unattached pin is first attached with the default range 544–2400 and fails exactly as that attach would; after a successful attach the pin is bound to the accepted reply's value and `read` yields `int` of the reply after it (empty on a timeout); an attached pin's read consumes exactly one reply, an attaching read consumes the replies up to and including the one after the accepted reply, and the flag and other port fields are unchanged |
| Servos.AttachThenWriteScenario | arduino/pyArduino.py:295-332 | a firmware answering `1` binds pin 9 to slot 1, and writing 90 to pin 9 then sends `@svw%1%90$!` |
| SoftSerial.Begin | arduino/pyArduino.py:369-386 | as written, the connected flag always equals the returned value, and the reply is compared as bytes with the text `"ss OK"`; the `ss` frame is sent best-effort, exactly one reply is consumed, and nothing else changes |
| SoftSerial.BeginNeverConnects | arduino/pyArduino.py:380-386 | as written, `begin` on an open port never reports a connection |
| SoftSerial.BeginIntended | arduino/pyArduino.py:369-386 | corrected: `begin` connects exactly when the stripped reply is `ss OK`; the same frame is sent, exactly one reply is consumed, and nothing else changes |
| SoftSerial.AcknowledgementIgnored | arduino/pyArduino.py:380-386 | an acknowledging firmware connects under the corrected comparison but not as written |
| SoftSerial.Write | arduino/pyArduino.py:388-404 | False without any exchange when disconnected; otherwise one best-effort `sw` frame and a None result; exactly one reply is consumed, and nothing but the sent frames and the reply queue changes |
| SoftSerial.WriteAcknowledgementIgnored | arduino/pyArduino.py:400-402 | an acknowledged write reports True under the corrected comparison and None as written, after the same exchange |
| SoftSerial.WriteIntended | arduino/pyArduino.py:388-404 | corrected: `write` returns True exactly when the stripped reply is `ss OK`, and None otherwise; the same `sw` frame is sent, exactly one reply is consumed, and nothing else changes |
| SoftSerial.Read | arduino/pyArduino.py:406-419 | False when disconnected; otherwise `sr` is sent, raising when the write fails, and the reply is returned if non-empty, else None; exactly one reply is consumed and the servo map and flag are unchanged |
| SoftSerial.WriteThenRead | arduino/pyArduino.py:388-419 | `write` consumes the answer to its own `sw` frame, so a following `read` sends `sr` and returns the next line (None when it is empty), with the board still connected |
| Numeric.ChopValue | utils/numeric_functions.py:65-82 | the result is the input inside the range, the minimum below it, the maximum above it, and always within a non-empty range |
| Numeric.ChopIdempotent | utils/numeric_functions.py:78-82 | chopping twice is the same as chopping once |
| Numeric.ChopMonotone | utils/numeric_functions.py:78-82 | chopping preserves order |
| Numeric.MapFunction | utils/numeric_functions.py:43-62 | the input range's endpoints map to the output range's endpoints |
| Numeric.MapAffine | utils/numeric_functions.py:61-62 | the map is affine: it preserves convex combinations |
| Numeric.MapMonotone | utils/numeric_functions.py:61-62 | for increasing ranges the map is monotone |
| Numeric.MapInverse | utils/numeric_functions.py:61-62 | mapping back with the ranges swapped gives the original value |
| Numeric.Shift | utils/numeric_functions.py:39 | the new buffer is the sample followed by all but the oldest element |
| Numeric.MovingAvg | utils/numeric_functions.py:24-40 | the buffer is shifted by the new sample, and the average times the length is the buffer's sum |
| Numeric.AverageWithinBounds | utils/numeric_functions.py:39-40 | if the buffer and the sample lie in [lo, hi], so does the average |
| Numeric.SumBounds | utils/numeric_functions.py:40 | a sum of n values in [lo, hi] lies in [n·lo, n·hi] |
| Numeric.SlidingWindow | utils/numeric_functions.py:39 | pushing samples keeps the buffer's length and holds the most recent samples, newest first, then the oldest survivors |
| Ordering.BelowTotal | utils/guiUtils.py:277 | Python's string order is total |
| Ordering.BelowTransitive | utils/guiUtils.py:277 | Python's string order is transitive |
| Ordering.BelowAntisymmetric | utils/guiUtils.py:277 | Python's string order is antisymmetric |
| Ordering.Sort | utils/guiUtils.py:277 | the sorted list is ordered and a permutation of its input |
| Ordering.SortedUnique | utils/guiUtils.py:328 | two sorted permutations of the same list are equal, so every correct sort returns the same list |
| PathBook.GetDefault | utils/guiUtils.py:98-103 | the configured value iff the key is configured, else None |
| PathBook.StoreCurrentPaths | utils/guiUtils.py:87-95 | the current list is filed under the key; every other history entry and attribute is unchanged |
| PathBook.Validate | utils/guiUtils.py:139-144 | an existing directory is kept; anything else, None included, becomes the home folder |
| PathBook.PathSelect | utils/guiUtils.py:170-247 | KeyError iff neither the tag nor the default key is configured; ValueError iff the lower-cased type matches no token; the dialog answer becomes the current paths; a cancel zeroes the count and keeps the configuration; otherwise the count is the number of paths and the tag remembers the folder (the whole path for folders, `dirname` for files) |
| PathBook.SelUserDataFolder | utils/guiUtils.py:122-167 | `validate` keeps an existing folder, else home; `confirm` keeps an existing folder; `select`, and `confirm` on a missing folder, run the folder dialog and take its first path, or home on a cancel; any other action sets None and raises ValueError |
| PathBook.FolderDialog | utils/guiUtils.py:224-247 | when the folder request is accepted, a single- or multi-folder dialog never raises and stores its answer; a cancel zeroes the count and keeps the configuration, otherwise the paths are counted and the first is remembered for the tag |
| PathBook.SingleFolderDialog | utils/guiUtils.py:224-247 | when the folder request is accepted, a single-folder dialog stores the one answer, counts it and remembers it exactly when it is not empty |
| PathBook.Gather | utils/guiUtils.py:309-326 | the gathered list holds exactly the glob matches of the listed folders |
| PathBook.GatherOne | utils/guiUtils.py:319-326 | a single folder contributes exactly its glob result, in glob order |
| PathBook.GatherAppend | utils/guiUtils.py:319-326 | gathering over two runs of folders concatenates their matches in folder order, duplicates kept, as the `extend` loop does |
| PathBook.Listing | utils/guiUtils.py:309-328 | the instance-free listing is sorted, a permutation of the gathered matches, and contains exactly the matches of the listed folders |
| PathBook.FilePathsList | utils/guiUtils.py:256-279 | the current paths become the sorted matches, counted; nothing else changes |
| PathBook.FilePathsListStoresListing | utils/folder_functions.py:236-258 | the method stores exactly the list the instance-free listing returns |
| PathBook.FolderPattern | utils/guiUtils.py:295-297 | the pattern extends the base path, adds a slash only when missing, and ends with `/*/` |
| PathBook.FoldersList | utils/guiUtils.py:282-305 | the current paths are the sorted sub-folder matches, each normalised, and counted; nothing else changes |
| GuiUtils.PathSelect | utils/guiUtils.py:170-233 | `fileRead`, `fileWrite` and `dirSelect` are accepted in any letter case; any other type raises ValueError and leaves paths and configuration alone; a missing tag and `defaultPath` raise KeyError |
| GuiUtils.SelUserDataFolder | utils/guiUtils.py:145-162 | with a start folder configured, `select` (and `confirm` on a missing folder) never raises, with single or multiple selection: the user data folder becomes the first chosen folder, also remembered for the tag, or home on a cancel; an unsupported action sets None and raises ValueError |
| GuiUtils.SelectedFolderIsRemembered | utils/guiUtils.py:156-197 | a folder chosen by `select` is what `appsGetDflt` reports for the tag and where the next dialog for the tag opens |
| FolderFunctions.PathSelect | utils/folder_functions.py:168-220 | `file_read`, `file_write` and `dir_select` are accepted in any letter case; any other type raises ValueError; a missing tag and `default_path` raise KeyError |
| FolderFunctions.SelectUserDataFolder | utils/folder_functions.py:116-166 | as written, `select` and `confirm` on a missing folder always raise, ValueError or KeyError, and never change paths, count or configuration |
| FolderFunctions.SelectUserDataFolderIntended | utils/folder_functions.py:142-159 | corrected: with a start folder configured, `select` succeeds with single or multiple selection, taking the first chosen folder (also remembered for the tag) or home on a cancel, as in `userPath` |
| FolderFunctions.SelectFailsOnlyAsWritten | utils/folder_functions.py:153-154 | with `default_path` configured, `select` raises as written and succeeds once the request is spelled `dir_select` |

## Left out

- Platform enumeration of serial ports (`enumerate_serial_ports`, `list_ports`, `glob` of `/dev/tty*`) is an input: the candidate list, in enumeration order.
- UTF-8 decoding of the handshake reply is an input (`utf8`): the model fixes only that the empty reply always decodes and that a reply which does not decode raises out of discovery.
- `time.sleep`, logging, `print` and the timeout value are not modelled. They have no effect on the modelled state.
- `Arduino.version` is not modelled separately; it only forwards to `get_version`.
- Python's `float()` and `int()` on reply bytes are parameters (`toFloat`, `toInt`), because their full grammar is out of scope. The all-digits check and `int()` inside `attach` are concrete, since `bytes.isdigit` accepts ASCII digits only.
- `flushInput` inside `attach`'s reset sequence is not modelled as dropping data. The reply queue stands for what each read returns after any flush.
- `Servos.Attach`: an attach that never receives a numeric reply is the result `Hang`. The source loops for ever; a finite reply queue cannot express that.
- `Arduino.ReadChannel` models the five channel methods through one function over the `Channel` keyword. Their bodies differ only in the keyword.
- Exact real arithmetic stands for NumPy floating point in `Numeric`. Division by a zero-width input range is excluded (`MapFunction` requires `inHi != inLo`); the source divides by zero there.
- The two path classes' constructors, `readDict`/`read_dictionary`, `appsWriteDfltVal`/`write_default_value` (JSON file I/O) and `userMsg` (a message box) are not modelled. The configuration dictionary they load is an input: the `config` field of the state the operations receive. A `Dialect` only names the default-folder key and the dialog tokens.
- `Text.Lower` lower-cases ASCII letters only, while Python's `str.lower` covers all of Unicode. The dispatch outcomes are unaffected: the only non-ASCII character that lower-cases into ASCII is the Kelvin sign, which becomes `k`, and no dialog token or action name contains `k`.
- `Servos.Write`, `Servos.WriteMicroseconds` and `Servos.SlotCommand` take integer angles and pulse widths, whereas the source renders any value with `str`. A float angle would send its float rendering, such as `90.0`.
- Tk windows and file dialogs are the `Env` functions of the folder they open at. Dialog titles and file-type filters are not modelled.
- `numPaths is not 0` is modelled as `numPaths != 0`. CPython caches small integers, so the identity test agrees with equality.
- `Arduino.CloseBoard` assumes the bare `sr.flush()` in `close` succeeds on an open port. A port whose writes fail (`writeFault`) would raise out of that flush and stay open, and the model does not express that.
- `Discovery.Connect` likewise assumes the constructor's bare `sr.flush()` succeeds on an open port, even one whose writes fail.
- `histPaths[key] = currentPaths` stores an alias of the list. No modelled operation mutates that list in place afterwards, so value semantics is faithful.

## Findings

| source | as written | input that shows it | evidently intended | confidence | as-written member | corrected member |
|---|---|---|---|---|---|---|
| utils/folder_functions.py:144-154 | `select_user_data_folder` requests the folder dialog with `'dirSelect'`, but `path_select` accepts only `file_read`, `file_write` and `dir_select` after lower-casing | action `select` with `default_path` configured: `path_select` raises ValueError and no dialog opens | request `'dir_select'`, so that `select` opens the folder dialog as `userPath` does | high; not executed | FolderFunctions.SelectUserDataFolder | FolderFunctions.SelectUserDataFolderIntended |
| arduino/pyArduino.py:380-386 | the reply from `readline()` is `bytes` and is compared with the `str` `"ss OK"`; in Python 3 that is always False (the same comparison at line 401 makes `write` return None instead of True) | firmware answers `ss OK\r\n`: `begin` returns False and leaves `connected` False | compare the decoded reply (or `b"ss OK"`), so an acknowledgement connects | high; not executed | SoftSerial.Begin | SoftSerial.BeginIntended |

=== FILE: arduino.dfy ===
/** The `Arduino` board object: the version handshake, the RC channel reads, the generic pulse
    read and `close`. The servo and software-serial parts live in their own modules but share
    this record, as the Python objects share one serial handle. */
module Arduino {
  import opened Common
  import opened Text
  import opened Frames
  import opened Transport

  /** One board: its port, the `Servos` pin-to-slot map and the `SoftwareSerial` flag. */
  datatype Board = Board(port: Port, servos: map<int, int>, ssConnected: bool)

  /** The five fixed receiver channels the sketch measures. */
  datatype Channel = Steering | Throttle | Mode | Record | FullAI

  function Keyword(c: Channel): string {
    match c
    case Steering => "strg"
    case Throttle => "thrtl"
    case Mode => "mode"
    case Record => "rec"
    case FullAI => "fullai"
  }

  const VersionFrame: string := BuildCmdStr("version", [])

  /** `get_version(sr)`: None when the write raises, otherwise the stripped reply (possibly
      empty). It never raises itself: a port that cannot be read cannot be written either. */
  function GetVersion(p: Port): (r: (Port, Option<string>))
    ensures r.1.None? <==> !Writable(p)
    ensures r.1.None? ==> r.0 == p
    ensures r.1.Some? ==> r.1.value == NextReply(p)
                          && r.0 == p.(sent := p.sent + [VersionFrame], replies := Remaining(p))
  {
    match Send(p, VersionFrame)
    case Err(_) => (p, None)
    case Ok(q) =>
      match ReadLine(q)
      case Ok((q', line)) => (q', Some(line))
      case Err(_) => (q, None)
  }

  /** The reading a channel query yields: the parsed reply, or the `-1` sentinel when `float()`
      rejects it. `toFloat` stands for Python's `float` applied to the reply bytes. */
  function Reading(line: string, toFloat: string -> Option<real>): real {
    toFloat(line).GetOr(-1.0)
  }

  /** One pulse query: frame `cmd` with `args`, send it best-effort, read one line, decode it. */
  function Query(b: Board, cmd: string, args: seq<string>, toFloat: string -> Option<real>)
    : (r: Result<(Board, real), Fault>)
    ensures r.Err? <==> !b.port.isOpen
    ensures r.Ok? ==>
      var (b', v) := r.value;
      && b'.servos == b.servos && b'.ssConnected == b.ssConnected
      && b'.port.sent == b.port.sent + (if Writable(b.port) then [BuildCmdStr(cmd, args)] else [])
      && b'.port.replies == Remaining(b.port)
      && b'.port.isOpen && b'.port.resets == b.port.resets && b'.port.writeFault == b.port.writeFault
      && (toFloat(NextReply(b.port)).None? ==> v == -1.0)
      && (toFloat(NextReply(b.port)).Some? ==> v == toFloat(NextReply(b.port)).value)
  {
    match Exchange(b.port, BuildCmdStr(cmd, args))
    case Err(e) => Err(e)
    case Ok((q, line)) => Ok((b.(port := q), Reading(line, toFloat)))
  }

  /** `steerIn`, `throttleIn`, `modeIn`, `recIn`, `fullAIIn`: the channel's keyword frame,
      without arguments. */
  function ReadChannel(b: Board, c: Channel, toFloat: string -> Option<real>)
    : (r: Result<(Board, real), Fault>)
    ensures r.Err? <==> !b.port.isOpen
    ensures r.Ok? ==> r.value.0.port.sent
                      == b.port.sent + (if Writable(b.port) then ["@" + Keyword(c) + "%$!"] else [])
    ensures r.Ok? && toFloat(NextReply(b.port)).None? ==> r.value.1 == -1.0
    ensures r.Ok? && toFloat(NextReply(b.port)).Some? ==> r.value.1 == toFloat(NextReply(b.port)).value
    ensures r.Ok? ==> r.value.0 == b.(port := b.port.(sent := r.value.0.port.sent, replies := Remaining(b.port)))
  {
    assert BuildCmdStr(Keyword(c), []) == "@" + Keyword(c) + "%$!";
    Query(b, Keyword(c), [], toFloat)
  }

  /** The pin number written for a pulse read: negated exactly for the level `"LOW"`. */
  function SignedPin(pin: int, level: string): int {
    if level == "LOW" then -pin else pin
  }

  /** `pulseIn(pin, val)` */
  function PulseIn(b: Board, pin: int, level: string, toFloat: string -> Option<real>)
    : (r: Result<(Board, real), Fault>)
    ensures r.Err? <==> !b.port.isOpen
    ensures r.Ok? && Writable(b.port) ==>
              r.value.0.port.sent == b.port.sent + [BuildCmdStr("pi", [IntToString(SignedPin(pin, level))])]
    ensures r.Ok? && !Writable(b.port) ==> r.value.0.port.sent == b.port.sent
    ensures r.Ok? && toFloat(NextReply(b.port)).None? ==> r.value.1 == -1.0
    ensures r.Ok? && toFloat(NextReply(b.port)).Some? ==> r.value.1 == toFloat(NextReply(b.port)).value
    ensures r.Ok? ==> r.value.0 == b.(port := b.port.(sent := r.value.0.port.sent, replies := Remaining(b.port)))
  {
    Query(b, "pi", [IntToString(SignedPin(pin, level))], toFloat)
  }

  /** Write failures are swallowed: a board whose port is open but rejects writes still answers
      every channel query from its reply queue, with nothing sent. */
  lemma WriteFailureIsSilent(b: Board, c: Channel, toFloat: string -> Option<real>)
    requires b.port.isOpen && b.port.writeFault
    ensures ReadChannel(b, c, toFloat).Ok?
    ensures ReadChannel(b, c, toFloat).value.0.port.sent == b.port.sent
    ensures ReadChannel(b, c, toFloat).value.1 == Reading(NextReply(b.port), toFloat)
  {
  }

  /** The sentinel is ambiguous: whenever `float` reads `"-1"` as -1, a genuine reply of `-1`
      and an unreadable (here: timed-out) reply give the caller the same value. */
  lemma SentinelIsAmbiguous(b: Board, c: Channel, toFloat: string -> Option<real>)
    requires b.port.isOpen && toFloat("-1") == Some(-1.0) && toFloat("").None?
    ensures
      var genuine := b.(port := b.port.(replies := ["-1\r\n"]));
      var silent := b.(port := b.port.(replies := []));
      ReadChannel(genuine, c, toFloat).value.1 == ReadChannel(silent, c, toFloat).value.1 == -1.0
  {
    StripCrlfLine("-1");
  }

  /** The firmware recovers the polarity from the frame: the pin it reads back is `-pin`
      exactly for `"LOW"`, so for a positive pin the sign alone carries the level. Pin 0 is the
      exception: `-0 == 0`, and both levels send the same frame. */
  lemma PulseInPolarity(pin: int, level: string)
    ensures
      var cmd := ParseFrame(BuildCmdStr("pi", [IntToString(SignedPin(pin, level))]));
      && cmd.Some? && cmd.value.keyword == "pi" && |cmd.value.args| == 1
      && DecimalValue(cmd.value.args[0]) == Some(if level == "LOW" then -pin else pin)
    ensures pin > 0 ==> (SignedPin(pin, level) < 0 <==> level == "LOW")
    ensures SignedPin(0, "LOW") == SignedPin(0, "HIGH")
  {
    var arg := IntToString(SignedPin(pin, level));
    FrameRoundTrip("pi", [arg]);
    DecimalRoundTrip(SignedPin(pin, level));
  }

  /** `close()`: closes an open port once; on a closed port it does nothing, so closing twice
      is the same as closing once. Servo bindings and the software-serial flag are untouched. */
  function CloseBoard(b: Board): (r: Board)
    ensures !r.port.isOpen
    ensures !b.port.isOpen ==> r == b
    ensures r.servos == b.servos && r.ssConnected == b.ssConnected
    ensures r.port == b.port.(isOpen := false)
  {
    b.(port := Close(b.port))
  }
}

=== FILE: common.dfy ===
/** Failure-carrying wrappers shared by every module of the model. */
module Common {

  /** Python's `None` next to a present value. */
  datatype Option<+T> = None | Some(value: T) {

    /** The value, or `default` when absent (Python's `x if x is not None else default`). */
    function GetOr(default: T): T {
      match this
      case Some(v) => v
      case None => default
    }
  }

  /** A value, or the exception an operation raised instead of returning one. */
  datatype Result<+T, +E> = Ok(value: T) | Err(error: E)
}

=== FILE: discovery.dfy ===
/** Port discovery (`find_port`) and the board constructor that falls back on it. The
    platform-specific enumeration becomes an input: the candidate devices, in enumeration
    order, each described by whether it opens and how it would answer. */
module Discovery {
  import opened Common
  import opened Text
  import opened Frames
  import opened Transport
  import opened Arduino

  /** A candidate serial device: whether `serial.Serial(path, ...)` succeeds on it, whether
      writes to it raise, and the raw lines it would answer with. */
  datatype Device = Device(path: string, opens: bool, writeFault: bool, replies: seq<string>)

  /** The port a candidate yields right after opening. */
  function Opened(d: Device): Port {
    Port(true, d.writeFault, [], d.replies, 0)
  }

  /** Whether `.decode()` (UTF-8) accepts a handshake reply, given which non-empty replies the
      codec accepts. The empty reply always decodes. */
  predicate Decodes(utf8: string -> bool, reply: string) {
    reply == "" || utf8(reply)
  }

  /** Passed over: it does not open, or it opens and answers the handshake with an empty line. */
  predicate Skipped(d: Device) {
    !d.opens || (!d.writeFault && NextReply(Opened(d)) == "")
  }

  /** Chosen: it opens and answers the handshake with a non-empty line that decodes, whatever
      its content. */
  predicate Accepted(d: Device, utf8: string -> bool) {
    d.opens && !d.writeFault && NextReply(Opened(d)) != "" && Decodes(utf8, NextReply(Opened(d)))
  }

  /** Ends the search with an exception: the handshake write raises, `get_version` returns
      None, and `None.decode()` raises `AttributeError`; or the reply is not UTF-8 and
      `.decode()` raises `UnicodeDecodeError`. */
  predicate Crashes(d: Device, utf8: string -> bool) {
    d.opens && (d.writeFault || !Decodes(utf8, NextReply(Opened(d))))
  }

  /** The exception a crashing candidate raises. */
  function CrashFault(d: Device): Fault {
    if d.writeFault then AttributeError else UnicodeDecodeError
  }

  datatype Found = Found(index: nat, port: Port)

  /** The outcome of a search: the chosen candidate, if any, and the ports it opened, probed
      and closed again on the way. */
  datatype Search = Search(found: Option<Found>, rejected: seq<Port>)

  function FindFrom(devs: seq<Device>, utf8: string -> bool, i: nat): (r: Result<Search, Fault>)
    requires i <= |devs|
    ensures r.Ok? && r.value.found.Some? ==>
      var k := r.value.found.value.index;
      && i <= k < |devs| && Accepted(devs[k], utf8)
      && (forall j :: i <= j < k ==> Skipped(devs[j]))
      && r.value.found.value.port == Opened(devs[k]).(sent := [VersionFrame], replies := Remaining(Opened(devs[k])))
    ensures (r.Ok? && r.value.found.None?) <==> forall j :: i <= j < |devs| ==> Skipped(devs[j])
    ensures r.Err? <==>
      exists k :: i <= k < |devs| && Crashes(devs[k], utf8) && forall j :: i <= j < k ==> Skipped(devs[j])
    ensures r.Err? ==>
      exists k :: i <= k < |devs| && Crashes(devs[k], utf8) && (forall j :: i <= j < k ==> Skipped(devs[j]))
                  && r.error == CrashFault(devs[k])
    ensures r.Ok? ==> forall q :: q in r.value.rejected ==> !q.isOpen && q.sent == [VersionFrame]
    decreases |devs| - i
  {
    if i == |devs| then Ok(Search(None, []))
    else if !devs[i].opens then FindFrom(devs, utf8, i + 1)
    else
      var (p, version) := GetVersion(Opened(devs[i]));
      match version
      case None => Err(AttributeError)
      case Some(text) =>
        if !Decodes(utf8, text) then Err(UnicodeDecodeError)
        else if text == "" then
          match FindFrom(devs, utf8, i + 1)
          case Err(e) => Err(e)
          case Ok(s) => Ok(s.(rejected := [Close(p)] + s.rejected))
        else Ok(Search(Some(Found(i, p)), []))
  }

  /** `find_port(baud, timeout)`: the first candidate, in enumeration order, that opens and
      gives a non-empty handshake. */
  function FindPort(devs: seq<Device>, utf8: string -> bool): Result<Search, Fault> {
    FindFrom(devs, utf8, 0)
  }

  /** What a skipped candidate adds to the outcome of the search after it: nothing when it
      does not open, its closed port among the rejected ones otherwise. */
  function PassOver(d: Device, rest: Result<Search, Fault>): Result<Search, Fault> {
    if !d.opens then rest
    else match rest
      case Err(e) => Err(e)
      case Ok(s) => Ok(s.(rejected := [Close(GetVersion(Opened(d)).0)] + s.rejected))
  }

  /** One step of the search over a candidate that is passed over. */
  lemma SkippedStep(devs: seq<Device>, utf8: string -> bool, i: nat)
    requires i < |devs| && Skipped(devs[i])
    ensures FindFrom(devs, utf8, i) == PassOver(devs[i], FindFrom(devs, utf8, i + 1))
  {
  }

  /** One step of the search over a candidate that is chosen: the search ends there. */
  lemma AcceptedStep(devs: seq<Device>, utf8: string -> bool, i: nat)
    requires i < |devs| && Accepted(devs[i], utf8)
    ensures FindFrom(devs, utf8, i) == Ok(Search(Some(Found(i, GetVersion(Opened(devs[i])).0)), []))
  {
  }

  /** The first accepted candidate after a run of skipped ones is the port discovery finds. */
  lemma {:induction false} FoundAt(devs: seq<Device>, utf8: string -> bool, i: nat, k: nat)
    requires i <= k < |devs| && Accepted(devs[k], utf8)
    requires forall j :: i <= j < k ==> Skipped(devs[j])
    ensures FindFrom(devs, utf8, i).Ok? && FindFrom(devs, utf8, i).value.found.Some?
    ensures FindFrom(devs, utf8, i).value.found.value.index == k
    decreases k - i
  {
    if i < k {
      FoundAt(devs, utf8, i + 1, k);
      SkippedStep(devs, utf8, i);
    } else {
      AcceptedStep(devs, utf8, i);
    }
  }

  /** Once the search finds a port, candidates appended after the enumeration are never reached. */
  lemma {:induction false} StopsAtFound(devs: seq<Device>, more: seq<Device>, utf8: string -> bool, i: nat)
    requires i <= |devs|
    requires FindFrom(devs, utf8, i).Ok? && FindFrom(devs, utf8, i).value.found.Some?
    ensures FindFrom(devs + more, utf8, i) == FindFrom(devs, utf8, i)
    decreases |devs| - i
  {
    var all := devs + more;
    assert all[i] == devs[i];
    if Skipped(devs[i]) {
      StopsAtFound(devs, more, utf8, i + 1);
    }
  }

  /** Discovery stops at the first accepted candidate: candidates enumerated after it are never
      opened, so appending more of them changes nothing. */
  lemma LaterCandidatesUntouched(devs: seq<Device>, more: seq<Device>, utf8: string -> bool, i: nat, k: nat)
    requires i <= k < |devs| && Accepted(devs[k], utf8)
    requires forall j :: i <= j < k ==> Skipped(devs[j])
    ensures FindFrom(devs + more, utf8, i) == FindFrom(devs, utf8, i)
  {
    FoundAt(devs, utf8, i, k);
    StopsAtFound(devs, more, utf8, i);
  }

  /** `Arduino(baud, port, timeout, sr)`: an explicit connection wins, then an explicit
      (non-empty) device path, then discovery; discovery finding nothing raises `ValueError`,
      and an exception inside discovery passes through. The constructor's `sr.flush()` raises
      on a closed connection. The new board has no servo bindings and software serial not
      connected. */
  function Connect(sr: Option<Port>, named: Option<Device>, devs: seq<Device>, utf8: string -> bool)
    : (r: Result<Board, Fault>)
    ensures r.Ok? ==> r.value.port.isOpen && r.value.servos == map[] && !r.value.ssConnected
    ensures sr.Some? ==> (r.Ok? <==> sr.value.isOpen)
    ensures sr.Some? && r.Ok? ==> r.value.port == sr.value
    ensures sr.None? && named.Some? && named.value.path != "" ==>
              r == (if named.value.opens then Ok(Board(Opened(named.value), map[], false)) else Err(PortError))
    ensures sr.None? && (named.None? || named.value.path == "") ==>
              (r == Err(ValueError("Could not find port.")) <==> forall j :: 0 <= j < |devs| ==> Skipped(devs[j]))
    ensures sr.None? && (named.None? || named.value.path == "") ==>
              ((r.Err? && !r.error.ValueError?) <==>
               exists k :: 0 <= k < |devs| && Crashes(devs[k], utf8) && forall j :: 0 <= j < k ==> Skipped(devs[j]))
    ensures sr.None? && (named.None? || named.value.path == "") && r.Ok? ==>
              exists k :: 0 <= k < |devs| && Accepted(devs[k], utf8) && (forall j :: 0 <= j < k ==> Skipped(devs[j]))
                          && r.value.port.sent == [VersionFrame]
                          && r.value.port == Opened(devs[k]).(sent := [VersionFrame], replies := Remaining(Opened(devs[k])))
  {
    if sr.Some? then
      if sr.value.isOpen then Ok(Board(sr.value, map[], false)) else Err(PortError)
    else if named.Some? && named.value.path != "" then
      if named.value.opens then Ok(Board(Opened(named.value), map[], false)) else Err(PortError)
    else
      match FindPort(devs, utf8)
      case Err(e) => Err(e)
      case Ok(Search(None, _)) => Err(ValueError("Could not find port."))
      case Ok(Search(Some(f), _)) => Ok(Board(f.port, map[], false))
  }
}

=== FILE: folder_functions.dfy ===
/** `UserPath` (utils/folder_functions.py): the shared path bookkeeping under snake_case names.
    Its dispatch tokens gained underscores (`dir_select`), but its folder-selection actions
    still request `'dirSelect'`, which lower-cases to `dirselect` and matches none of them. */
module FolderFunctions {
  import opened Common
  import opened Text
  import opened PathBook

  const Folder: Dialect := Dialect("default_path", "file_read", "file_write", "dir_select", "dirSelect")

  /** The same class with the folder request spelled as its dispatch expects. */
  const FolderIntended: Dialect := Folder.(dirRequest := "dir_select")

  lemma DirectoryRequestRejected()
    ensures Classify(Folder, Folder.dirRequest) == None
  {
    var t := Lower("dirSelect");
    assert |t| == 9 && t[0] == 'd';
    assert "file_read"[0] == 'f';
  }

  lemma IntendedRequestAccepted()
    ensures Classify(FolderIntended, FolderIntended.dirRequest) == Some(DirSelect)
  {
    assert Lower("dir_select") == "dir_select";
  }

  /** `path_select(path_tag, path_type)`: accepts `file_read`, `file_write` and `dir_select`
      in any letter case and raises `ValueError` for anything else, `KeyError` when neither
      the tag nor `default_path` is configured. */
  function PathSelect(s: State, env: Env, tag: string, pathType: string): (r: Step)
    ensures StartFolder(Folder, s.config, tag).None? ==> r == Step(s, Some(KeyError("default_path")))
    ensures StartFolder(Folder, s.config, tag).Some? ==>
              (r.raised.None? <==> Lower(pathType) in {"file_read", "file_write", "dir_select"})
    ensures StartFolder(Folder, s.config, tag).Some? && r.raised.Some? ==>
              r.raised == Some(ValueError) && r.state.config == s.config && r.state.currentPaths == s.currentPaths
  {
    PathBook.PathSelect(Folder, s, env, tag, pathType)
  }

  /** `select_user_data_folder(folder_path, action, path_tag)` as written: `select`, and
      `confirm` on a folder that is not a directory, always raise. With a start folder
      configured the dialog dispatch raises `ValueError` (after the start folder has been
      validated into `user_data_folder`); without one the lookup raises `KeyError`. No dialog
      is ever shown, so the paths, the count and the configuration are unchanged. */
  function SelectUserDataFolder(s: State, env: Env, folder: Option<string>, action: string, tag: string)
    : (r: Step)
    ensures Lower(action) == "select" || (Lower(action) == "confirm" && !env.isDir(folder.GetOr(""))) ==>
      && r.raised.Some?
      && r.state.config == s.config && r.state.currentPaths == s.currentPaths && r.state.numPaths == s.numPaths
      && (StartFolder(Folder, s.config, tag).Some? ==> r.raised == Some(ValueError))
      && (StartFolder(Folder, s.config, tag).None? ==> r.raised == Some(KeyError("default_path")))
    ensures Lower(action) == "validate" ==> r == Step(s.(userDataFolder := Some(Validate(env, folder))), None)
  {
    DirectoryRequestRejected();
    PathBook.SelUserDataFolder(Folder, s, env, folder, action, tag)
  }

  /** `select_user_data_folder` with the folder request spelled `'dir_select'`: with a start
      folder configured, `select` opens the folder dialog (single or multiple selection) and
      succeeds, exactly as in `userPath`. */
  function SelectUserDataFolderIntended(s: State, env: Env, folder: Option<string>, action: string, tag: string)
    : (r: Step)
    ensures
      var start := StartFolder(Folder, s.config, tag);
      (Lower(action) == "select" || (Lower(action) == "confirm" && !env.isDir(folder.GetOr(""))))
      && start.Some? && !s.multiSelect ==>
        var chosen := env.openDir(Validate(env, start));
        && r.raised.None?
        && r.state.userDataFolder == Some(if chosen != "" then chosen else env.home)
        && r.state.config == (if chosen != "" then s.config[tag := chosen] else s.config)
    ensures
      var start := StartFolder(Folder, s.config, tag);
      (Lower(action) == "select" || (Lower(action) == "confirm" && !env.isDir(folder.GetOr(""))))
      && start.Some? ==>
        var paths := Ask(env, DirSelect, s.multiSelect, Validate(env, start));
        && r.raised.None?
        && r.state.currentPaths == paths
        && r.state.userDataFolder == Some(if Cancelled(paths) then env.home else paths[0])
        && r.state.config == (if Cancelled(paths) then s.config else s.config[tag := paths[0]])
  {
    IntendedRequestAccepted();
    SingleFolderDialog(FolderIntended, s, env, tag);
    FolderDialog(FolderIntended, s, env, tag);
    PathBook.SelUserDataFolder(FolderIntended, s, env, folder, action, tag)
  }

  /** The discrepancy on a concrete instance: with `default_path` configured, `select` raises
      as written and succeeds once the request is spelled as the dispatch expects. */
  lemma SelectFailsOnlyAsWritten(s: State, env: Env)
    requires "default_path" in s.config && !s.multiSelect
    ensures SelectUserDataFolder(s, env, None, "select", "default_path").raised == Some(ValueError)
    ensures SelectUserDataFolderIntended(s, env, None, "select", "default_path").raised.None?
  {
    assert Lower("select") == "select";
  }
}

=== FILE: frames.dfy ===
/** The command frame the host writes to the Arduino: `@keyword%arg1%arg2...$!`. */
module Frames {
  import opened Common
  import opened Text

  const FieldSep: char := '%'

  /** A keyword or rendered argument the frame syntax can carry: it holds no field separator. */
  predicate Clean(field: string) {
    FieldSep !in field
  }

  /** `build_cmd_str(cmd, args)`. Python's `args=None` and `args=()` both render as no
      arguments, so an absent argument list is the empty sequence here. Arguments arrive
      already rendered by `str`. */
  function BuildCmdStr(cmd: string, args: seq<string>): (frame: string)
    ensures |frame| >= 4
    ensures frame[0] == '@' && frame[|frame| - 2..] == "$!"
    ensures |frame| == |cmd| + |Join(args, FieldSep)| + 4
  {
    "@" + cmd + [FieldSep] + Join(args, FieldSep) + "$!"
  }

  /** What lies between the leading `@` and the trailing `$!`. */
  function Body(frame: string): string
    requires |frame| >= 3
  {
    frame[1..|frame| - 2]
  }

  /** A command as the firmware reads it off the wire. */
  datatype Command = Command(keyword: string, args: seq<string>)

  /** How a frame is taken apart on the firmware side: strip the delimiters and split the body
      on `%`; the single empty field left after the keyword by an argument-less frame means
      "no arguments". */
  function ParseFrame(frame: string): Option<Command> {
    if |frame| >= 3 && frame[0] == '@' && frame[|frame| - 2..] == "$!" then
      var fields := Split(Body(frame), FieldSep);
      if |fields| == 1 then None
      else Some(Command(fields[0], if fields[1..] == [""] then [] else fields[1..]))
    else None
  }

  lemma BodyOfFrame(cmd: string, args: seq<string>)
    ensures Body(BuildCmdStr(cmd, args)) == cmd + [FieldSep] + Join(args, FieldSep)
  {
    var frame := BuildCmdStr(cmd, args);
    assert frame == "@" + (cmd + [FieldSep] + Join(args, FieldSep)) + "$!";
  }

  /** Splitting a frame body on `%` gives the keyword followed by the arguments, except that a
      frame without arguments yields the keyword and one empty field. */
  lemma {:induction false} FrameFields(cmd: string, args: seq<string>)
    requires Clean(cmd)
    requires forall i :: 0 <= i < |args| ==> Clean(args[i])
    ensures Split(Body(BuildCmdStr(cmd, args)), FieldSep)
            == if |args| == 0 then [cmd, ""] else [cmd] + args
  {
    BodyOfFrame(cmd, args);
    if |args| == 0 {
      assert cmd + [FieldSep] + Join(args, FieldSep) == Join([cmd, ""], FieldSep);
      SplitJoin([cmd, ""], FieldSep);
    } else {
      var fields := [cmd] + args;
      assert fields[1..] == args;
      assert Join(fields, FieldSep) == cmd + [FieldSep] + Join(args, FieldSep);
      SplitJoin(fields, FieldSep);
    }
  }

  /** The firmware recovers exactly the keyword and arguments the host framed, provided none of
      them contains `%` and the arguments are not the single empty string (which renders like
      no arguments at all). */
  lemma FrameRoundTrip(cmd: string, args: seq<string>)
    requires Clean(cmd)
    requires forall i :: 0 <= i < |args| ==> Clean(args[i])
    requires args != [""]
    ensures ParseFrame(BuildCmdStr(cmd, args)) == Some(Command(cmd, args))
  {
    FrameFields(cmd, args);
    if |args| > 0 {
      assert ([cmd] + args)[1..] == args;
    }
  }

  /** A frame built from line-free parts contains no CR or LF, so it never looks like the end of
      a line to the firmware. */
  lemma FrameHasNoLineBreak(cmd: string, args: seq<string>)
    requires '\r' !in cmd && '\n' !in cmd
    requires forall i :: 0 <= i < |args| ==> '\r' !in args[i] && '\n' !in args[i]
    ensures '\r' !in BuildCmdStr(cmd, args) && '\n' !in BuildCmdStr(cmd, args)
  {
    var joined := Join(args, FieldSep);
    forall c | c in joined
      ensures c != '\r' && c != '\n'
    {
      JoinChars(args, FieldSep, c);
    }
    assert BuildCmdStr(cmd, args) == "@" + cmd + [FieldSep] + joined + "$!";
  }

  /** Rendered integers never contain the field separator, so numeric arguments are always
      safe to frame. */
  lemma IntegersAreClean(i: int)
    ensures Clean(IntToString(i))
  {
  }
}

=== FILE: gui_utils.dfy ===
/** `userPath` (utils/guiUtils.py): the shared path bookkeeping under camelCase names, whose
    folder-selection actions request the `'dirSelect'` dialog type, which its dispatch
    accepts. */
module GuiUtils {
  import opened Common
  import opened Text
  import opened PathBook

  const Gui: Dialect := Dialect("defaultPath", "fileread", "filewrite", "dirselect", "dirSelect")

  lemma DirectoryRequestAccepted()
    ensures Classify(Gui, Gui.dirRequest) == Some(DirSelect)
  {
    assert Lower("dirSelect") == "dirselect";
  }

  /** `pathSelect(pathTag, pathType)`: the dispatch accepts `fileRead`, `fileWrite` and
      `dirSelect` in any letter case and raises `ValueError` for anything else; a missing tag
      and missing `defaultPath` raise `KeyError` before any dialog. */
  function PathSelect(s: State, env: Env, tag: string, pathType: string): (r: Step)
    ensures StartFolder(Gui, s.config, tag).None? ==> r == Step(s, Some(KeyError("defaultPath")))
    ensures StartFolder(Gui, s.config, tag).Some? ==>
              (r.raised.None? <==> Lower(pathType) in {"fileread", "filewrite", "dirselect"})
    ensures StartFolder(Gui, s.config, tag).Some? && r.raised.Some? ==>
              r.raised == Some(ValueError) && r.state.config == s.config && r.state.currentPaths == s.currentPaths
  {
    PathBook.PathSelect(Gui, s, env, tag, pathType)
  }

  /** `selUserDataFolder(folderPath, action, pathTag)`. Whenever a start folder is configured,
      `select` (and `confirm` on a missing folder) opens the folder dialog at the validated
      start folder and never raises: the user data folder becomes the first chosen folder,
      which is also remembered for the tag, or the home folder on a cancel. The first ensures
      spells out the single-folder dialog; the second covers multiple selection as well. */
  function SelUserDataFolder(s: State, env: Env, folder: Option<string>, action: string, tag: string)
    : (r: Step)
    ensures
      var start := StartFolder(Gui, s.config, tag);
      (Lower(action) == "select" || (Lower(action) == "confirm" && !env.isDir(folder.GetOr(""))))
      && start.Some? && !s.multiSelect ==>
        var chosen := env.openDir(Validate(env, start));
        && r.raised.None?
        && r.state.userDataFolder == Some(if chosen != "" then chosen else env.home)
        && r.state.config == (if chosen != "" then s.config[tag := chosen] else s.config)
    ensures
      var start := StartFolder(Gui, s.config, tag);
      (Lower(action) == "select" || (Lower(action) == "confirm" && !env.isDir(folder.GetOr(""))))
      && start.Some? ==>
        var paths := Ask(env, DirSelect, s.multiSelect, Validate(env, start));
        && r.raised.None?
        && r.state.currentPaths == paths
        && r.state.userDataFolder == Some(if Cancelled(paths) then env.home else paths[0])
        && r.state.config == (if Cancelled(paths) then s.config else s.config[tag := paths[0]])
    ensures Lower(action) !in {"validate", "confirm", "select"} ==>
              r == Step(s.(userDataFolder := None), Some(ValueError))
  {
    DirectoryRequestAccepted();
    SingleFolderDialog(Gui, s, env, tag);
    FolderDialog(Gui, s, env, tag);
    PathBook.SelUserDataFolder(Gui, s, env, folder, action, tag)
  }

  /** A folder chosen through `select` is what the next dialog for the same tag opens at (as
      long as it is still a directory), and what `appsGetDflt` reports for the tag. */
  lemma SelectedFolderIsRemembered(s: State, env: Env, tag: string, chosen: string)
    requires StartFolder(Gui, s.config, tag).Some? && !s.multiSelect
    requires env.openDir(Validate(env, StartFolder(Gui, s.config, tag))) == chosen && chosen != ""
    requires env.isDir(chosen)
    ensures
      var after := SelUserDataFolder(s, env, None, "select", tag).state;
      && GetDefault(after, tag) == Some(chosen)
      && Validate(env, StartFolder(Gui, after.config, tag)) == chosen
  {
    assert Lower("select") == "select";
  }
}

=== FILE: numeric.dfy ===
/** The static numeric helpers of `GeneralUtils`, over exact reals. */
module Numeric {

  /** `chop_value(input_value, min_value, max_value)` */
  function ChopValue(x: real, lo: real, hi: real): (r: real)
    ensures lo <= hi ==> lo <= r <= hi
    ensures lo <= x <= hi ==> r == x
    ensures x < lo ==> r == lo
    ensures lo <= x && hi < x ==> r == hi
    ensures r == x || r == lo || r == hi
  {
    if x < lo then lo
    else if x > hi then hi
    else x
  }

  /** Clamping twice is clamping once, for a well-formed range. */
  lemma ChopIdempotent(x: real, lo: real, hi: real)
    requires lo <= hi
    ensures ChopValue(ChopValue(x, lo, hi), lo, hi) == ChopValue(x, lo, hi)
  {
  }

  /** Clamping keeps the order of its inputs. */
  lemma ChopMonotone(x: real, y: real, lo: real, hi: real)
    requires lo <= hi && x <= y
    ensures ChopValue(x, lo, hi) <= ChopValue(y, lo, hi)
  {
  }

  /** `map_ranges`: the input span `[inLo, inHi]` and the output span `[outLo, outHi]`. */
  datatype Ranges = Ranges(inLo: real, inHi: real, outLo: real, outHi: real)

  /** `map_function(input_value, map_ranges)`: the straight line through `(inLo, outLo)` and
      `(inHi, outHi)`. */
  function MapFunction(x: real, m: Ranges): (r: real)
    requires m.inHi != m.inLo
    ensures x == m.inLo ==> r == m.outLo
    ensures x == m.inHi ==> r == m.outHi
  {
    var d := m.inHi - m.inLo;
    assert (m.inLo - m.inLo) / d == 0.0;
    assert (m.inHi - m.inLo) / d == 1.0;
    (x - m.inLo) / d * (m.outHi - m.outLo) + m.outLo
  }

  /** The map is affine: it commutes with weighted averages of inputs. */
  lemma MapAffine(x: real, y: real, t: real, m: Ranges)
    requires m.inHi != m.inLo
    ensures MapFunction(t * x + (1.0 - t) * y, m) == t * MapFunction(x, m) + (1.0 - t) * MapFunction(y, m)
  {
    var d := m.inHi - m.inLo;
    var s := m.outHi - m.outLo;
    var z := t * x + (1.0 - t) * y;
    assert z - m.inLo == t * (x - m.inLo) + (1.0 - t) * (y - m.inLo);
    assert (z - m.inLo) / d == t * ((x - m.inLo) / d) + (1.0 - t) * ((y - m.inLo) / d);
  }

  /** With both spans increasing the map preserves order. */
  lemma MapMonotone(x: real, y: real, m: Ranges)
    requires m.inLo < m.inHi && m.outLo <= m.outHi && x <= y
    ensures MapFunction(x, m) <= MapFunction(y, m)
  {
    var d := m.inHi - m.inLo;
    var s := m.outHi - m.outLo;
    var u := (x - m.inLo) / d;
    var v := (y - m.inLo) / d;
    assert v - u == (y - x) / d;
    assert (y - x) / d >= 0.0;
    assert v * s - u * s == (v - u) * s;
    assert (v - u) * s >= 0.0;
  }

  /** Mapping back with the spans exchanged recovers the input. */
  lemma MapInverse(x: real, m: Ranges)
    requires m.inHi != m.inLo && m.outHi != m.outLo
    ensures MapFunction(MapFunction(x, m), Ranges(m.outLo, m.outHi, m.inLo, m.inHi)) == x
  {
    var d := m.inHi - m.inLo;
    var s := m.outHi - m.outLo;
    var u := (x - m.inLo) / d;
    assert MapFunction(x, m) - m.outLo == u * s;
    assert u * s / s == u;
    assert u * d == x - m.inLo;
  }

  function Sum(xs: seq<real>): real {
    if |xs| == 0 then 0.0 else xs[0] + Sum(xs[1..])
  }

  /** `np.roll(xs, 1)`: the last element moves to the front. */
  function Roll(xs: seq<real>): (r: seq<real>)
    ensures |r| == |xs|
  {
    if |xs| == 0 then [] else [xs[|xs| - 1]] + xs[..|xs| - 1]
  }

  /** Python's `xs[1:]`, which is empty for an empty sequence. */
  function DropFirst(xs: seq<real>): seq<real> {
    if |xs| == 0 then [] else xs[1..]
  }

  /** `np.insert(np.roll(avg_buffer, 1)[1:], 0, new_value)`: the newest sample enters at the
      front and the oldest one drops out; an empty buffer becomes one sample long. */
  function Shift(buffer: seq<real>, sample: real): (r: seq<real>)
    ensures |buffer| > 0 ==> r == [sample] + buffer[..|buffer| - 1]
    ensures |buffer| == 0 ==> r == [sample]
  {
    [sample] + DropFirst(Roll(buffer))
  }

  /** `moving_avg(avg_buffer, new_value)`: the shifted buffer and its mean. */
  function MovingAvg(buffer: seq<real>, sample: real): (r: (seq<real>, real))
    ensures r.0 == Shift(buffer, sample)
    ensures |r.0| > 0 && r.1 * (|r.0| as real) == Sum(r.0)
  {
    var shifted := Shift(buffer, sample);
    (shifted, Sum(shifted) / (|shifted| as real))
  }

  predicate Within(xs: seq<real>, lo: real, hi: real) {
    forall i :: 0 <= i < |xs| ==> lo <= xs[i] <= hi
  }

  lemma {:induction false} SumBounds(xs: seq<real>, lo: real, hi: real)
    requires Within(xs, lo, hi)
    ensures lo * (|xs| as real) <= Sum(xs) <= hi * (|xs| as real)
    decreases |xs|
  {
    if |xs| > 0 {
      assert Within(xs[1..], lo, hi);
      SumBounds(xs[1..], lo, hi);
      assert (|xs| as real) == (|xs[1..]| as real) + 1.0;
    }
  }

  /** Shifting a sample that respects the bounds into a buffer that does keeps the bounds. */
  lemma ShiftWithin(buffer: seq<real>, sample: real, lo: real, hi: real)
    requires Within(buffer, lo, hi) && lo <= sample <= hi
    ensures Within(Shift(buffer, sample), lo, hi)
  {
    var shifted := Shift(buffer, sample);
    forall i | 0 <= i < |shifted|
      ensures lo <= shifted[i] <= hi
    {
      if i > 0 {
        assert shifted[i] == buffer[i - 1];
      }
    }
  }

  /** The average `moving_avg` reports is the mean of the shifted buffer. */
  lemma AverageIsMean(buffer: seq<real>, sample: real)
    ensures MovingAvg(buffer, sample).1 == Sum(Shift(buffer, sample)) / (|Shift(buffer, sample)| as real)
  {
  }

  /** The average stays within any bounds the retained samples and the new one respect. */
  lemma AverageWithinBounds(buffer: seq<real>, sample: real, lo: real, hi: real)
    requires Within(buffer, lo, hi) && lo <= sample <= hi
    ensures lo <= MovingAvg(buffer, sample).1 <= hi
  {
    var shifted := Shift(buffer, sample);
    var total := Sum(shifted);
    var n := |shifted| as real;
    ShiftWithin(buffer, sample, lo, hi);
    SumBounds(shifted, lo, hi);
    MeanBounds(total, n, lo, hi);
    AverageIsMean(buffer, sample);
  }

  /** Dividing by a positive number keeps the sign. */
  lemma DivNonNegative(x: real, n: real)
    requires x >= 0.0 && n > 0.0
    ensures x / n >= 0.0
  {
  }

  lemma MeanBounds(total: real, n: real, lo: real, hi: real)
    requires n > 0.0 && lo * n <= total <= hi * n
    ensures lo <= total / n <= hi
  {
    assert total / n - lo == (total - lo * n) / n;
    assert hi - total / n == (hi * n - total) / n;
    DivNonNegative(total - lo * n, n);
    DivNonNegative(hi * n - total, n);
  }

  function Reverse(xs: seq<real>): (r: seq<real>)
    ensures |r| == |xs|
  {
    if |xs| == 0 then [] else [xs[|xs| - 1]] + Reverse(xs[..|xs| - 1])
  }

  /** The buffer after feeding it `samples` one by one, oldest first. */
  function PushAll(buffer: seq<real>, samples: seq<real>): (r: seq<real>)
    ensures |buffer| > 0 ==> |r| == |buffer|
  {
    if |samples| == 0 then buffer
    else Shift(PushAll(buffer, samples[..|samples| - 1]), samples[|samples| - 1])
  }

  lemma PrefixOfCons(x: real, w: seq<real>, n: nat)
    requires 1 <= n <= |w|
    ensures ([x] + w)[..n] == [x] + w[..n][..n - 1]
  {
    assert w[..n][..n - 1] == w[..n - 1];
  }

  /** A non-empty buffer is a sliding window: it always holds the most recent samples, newest
      first, topped up with the oldest initial entries until enough samples have arrived. */
  lemma {:induction false} SlidingWindow(buffer: seq<real>, samples: seq<real>)
    requires |buffer| > 0
    ensures PushAll(buffer, samples) == (Reverse(samples) + buffer)[..|buffer|]
    decreases |samples|
  {
    if |samples| > 0 {
      var n := |buffer|;
      var init := samples[..|samples| - 1];
      var x := samples[|samples| - 1];
      var w := Reverse(init) + buffer;
      SlidingWindow(buffer, init);
      var prev := PushAll(buffer, init);
      assert prev == w[..n];
      assert PushAll(buffer, samples) == Shift(prev, x);
      assert Shift(prev, x) == [x] + prev[..n - 1];
      assert Reverse(samples) == [x] + Reverse(init);
      PrefixOfCons(x, w, n);
    }
  }
}

=== FILE: ordering.dfy ===
/** Python's ordering of `str` values (code point by code point, a proper prefix first) and
    the sort `list.sort()` / `sorted()` perform with it. */
module Ordering {

  /** `a <= b` on Python strings. */
  predicate Below(a: string, b: string)
    decreases |a|
  {
    |a| == 0 || (|b| > 0 && (a[0] < b[0] || (a[0] == b[0] && Below(a[1..], b[1..]))))
  }

  lemma {:induction false} BelowReflexive(a: string)
    ensures Below(a, a)
    decreases |a|
  {
    if |a| > 0 {
      BelowReflexive(a[1..]);
    }
  }

  lemma {:induction false} BelowTotal(a: string, b: string)
    ensures Below(a, b) || Below(b, a)
    decreases |a|
  {
    if |a| > 0 && |b| > 0 && a[0] == b[0] {
      BelowTotal(a[1..], b[1..]);
    }
  }

  lemma {:induction false} BelowAntisymmetric(a: string, b: string)
    requires Below(a, b) && Below(b, a)
    ensures a == b
    decreases |a|
  {
    if |a| > 0 {
      BelowAntisymmetric(a[1..], b[1..]);
      assert a == [a[0]] + a[1..] && b == [b[0]] + b[1..];
    }
  }

  lemma {:induction false} BelowTransitive(a: string, b: string, c: string)
    requires Below(a, b) && Below(b, c)
    ensures Below(a, c)
    decreases |a|
  {
    if |a| > 0 && a[0] == b[0] && b[0] == c[0] {
      BelowTransitive(a[1..], b[1..], c[1..]);
    }
  }

  predicate Sorted(xs: seq<string>) {
    forall i, j :: 0 <= i < j < |xs| ==> Below(xs[i], xs[j])
  }

  /** Places `x` in a sorted list, before the first element it is below. */
  function Insert(x: string, xs: seq<string>): (r: seq<string>)
    requires Sorted(xs)
    ensures Sorted(r)
    ensures multiset(r) == multiset(xs) + multiset{x}
    ensures |r| == |xs| + 1
  {
    if |xs| == 0 then [x]
    else if Below(x, xs[0]) then
      assert forall j :: 0 < j < |xs| ==> Below(x, xs[j]) by {
        forall j | 0 < j < |xs| {
          BelowTransitive(x, xs[0], xs[j]);
        }
      }
      assert xs == [xs[0]] + xs[1..];
      [x] + xs
    else
      BelowTotal(x, xs[0]);
      var rest := Insert(x, xs[1..]);
      assert forall j :: 0 <= j < |rest| ==> Below(xs[0], rest[j]) by {
        forall j | 0 <= j < |rest|
          ensures Below(xs[0], rest[j])
        {
          assert rest[j] in multiset(rest);
          if rest[j] != x {
            assert rest[j] in multiset(xs[1..]);
            var m :| 0 <= m < |xs[1..]| && xs[1..][m] == rest[j];
            assert xs[m + 1] == rest[j];
          }
        }
      }
      assert xs == [xs[0]] + xs[1..];
      [xs[0]] + rest
  }

  /** `sorted(xs)`: an ordered rearrangement of `xs`. */
  function Sort(xs: seq<string>): (r: seq<string>)
    ensures Sorted(r)
    ensures multiset(r) == multiset(xs)
    ensures |r| == |xs|
  {
    if |xs| == 0 then []
    else
      assert xs == [xs[0]] + xs[1..];
      Insert(xs[0], Sort(xs[1..]))
  }

  /** The first element of a sorted list is below every element of it. */
  lemma FirstIsLeast(a: seq<string>, x: string)
    requires Sorted(a) && x in multiset(a)
    ensures Below(a[0], x)
  {
    var i :| 0 <= i < |a| && a[i] == x;
    if i == 0 {
      BelowReflexive(x);
    }
  }

  lemma DropEqualHeads(a: seq<string>, b: seq<string>)
    requires |a| > 0 && |b| > 0 && a[0] == b[0] && multiset(a) == multiset(b)
    ensures multiset(a[1..]) == multiset(b[1..])
  {
    assert a == [a[0]] + a[1..];
    assert b == [b[0]] + b[1..];
    assert multiset(a[1..]) == multiset(a) - multiset{a[0]};
    assert multiset(b[1..]) == multiset(b) - multiset{b[0]};
  }

  /** There is only one ordered rearrangement of a list, so any stable or unstable sort
      produces the same result as `Sort`. */
  lemma {:induction false} SortedUnique(a: seq<string>, b: seq<string>)
    requires Sorted(a) && Sorted(b)
    requires multiset(a) == multiset(b)
    ensures a == b
    decreases |a|
  {
    assert |a| == |multiset(a)| == |multiset(b)| == |b|;
    if |a| > 0 {
      assert a[0] in multiset(b) && b[0] in multiset(a);
      FirstIsLeast(b, a[0]);
      FirstIsLeast(a, b[0]);
      BelowAntisymmetric(a[0], b[0]);
      DropEqualHeads(a, b);
      SortedUnique(a[1..], b[1..]);
      assert a == [a[0]] + a[1..] && b == [b[0]] + b[1..];
    }
  }
}

=== FILE: pathbook.dfy ===
/** The path bookkeeping shared by `userPath` (utils/guiUtils.py) and `UserPath`
    (utils/folder_functions.py). The two classes are the same code under two naming
    conventions; a `Dialect` records the names each one uses. File dialogs, `os.path` and
    `glob` are inputs (`Env`): the model fixes what the classes do with their answers. */
module PathBook {
  import opened Common
  import opened Text
  import opened Ordering

  /** The configuration key of the default folder, the three lower-case `pathType` tokens the
      dialog dispatch accepts, and the `pathType` string the folder-selection actions pass. */
  datatype Dialect = Dialect(defaultKey: string, fileRead: string, fileWrite: string,
                             dirSelect: string, dirRequest: string)

  /** The environment: `os.path.isdir`, the expanded home folder, `os.path.dirname`,
      `os.path.normpath`, `glob.glob`, and the user's answer to each dialog, as a function of
      the folder the dialog opens in (an empty answer is a cancel). */
  datatype Env = Env(isDir: string -> bool, home: string, dirname: string -> string,
                     normpath: string -> string, glob: string -> seq<string>,
                     openFile: string -> string, openFiles: string -> seq<string>,
                     saveFile: string -> string, openDir: string -> string,
                     openDirs: string -> seq<string>)

  /** The instance attributes the operations read and write. */
  datatype State = State(currentPaths: seq<string>, numPaths: nat, history: map<string, seq<string>>,
                         config: map<string, string>, userDataFolder: Option<string>, multiSelect: bool)

  datatype Failure = KeyError(key: string) | ValueError

  /** The instance after an operation, and the exception it raised, if any (attributes
      assigned before the raise stay assigned). */
  datatype Step = Step(state: State, raised: Option<Failure>)

  /** `numPaths` counts `currentPaths`, except after a cancelled dialog, which zeroes it. */
  predicate Consistent(s: State) {
    s.numPaths == 0 || s.numPaths == |s.currentPaths|
  }

  /** `appsGetDflt(keyName)` / `apps_get_default(key_name)`: the configured value, or None. */
  function GetDefault(s: State, key: string): (r: Option<string>)
    ensures r.Some? <==> key in s.config
    ensures r.Some? ==> r.value == s.config[key]
  {
    if key in s.config then Some(s.config[key]) else None
  }

  /** `storeCurrentPaths(keyName)` / `store_current_paths(key_name)`: files the current list
      under `key`; every other history entry and every other attribute is left alone. */
  function StoreCurrentPaths(s: State, key: string): (r: State)
    ensures key in r.history && r.history[key] == s.currentPaths
    ensures r.history.Keys == s.history.Keys + {key}
    ensures forall k :: k in s.history && k != key ==> r.history[k] == s.history[k]
    ensures r == s.(history := r.history)
  {
    s.(history := s.history[key := s.currentPaths])
  }

  /** The `validate` action: None counts as the empty path; an existing directory is kept,
      anything else is replaced by the home folder. */
  function Validate(env: Env, folder: Option<string>): (r: string)
    ensures env.isDir(r) || r == env.home
    ensures env.isDir(folder.GetOr("")) ==> r == folder.GetOr("")
    ensures !env.isDir(folder.GetOr("")) ==> r == env.home
  {
    var f := folder.GetOr("");
    if env.isDir(f) then f else env.home
  }

  /** Where a dialog for `tag` starts: the folder remembered for the tag, else the default
      folder; None when neither key exists (the lookup raises `KeyError`). */
  function StartFolder(d: Dialect, config: map<string, string>, tag: string): Option<string> {
    if tag in config then Some(config[tag])
    else if d.defaultKey in config then Some(config[d.defaultKey])
    else None
  }

  datatype DialogKind = FileRead | FileWrite | DirSelect

  /** The `pathType` dispatch: the lower-cased type against the dialect's tokens. */
  function Classify(d: Dialect, pathType: string): Option<DialogKind> {
    var t := Lower(pathType);
    if t == d.fileRead then Some(FileRead)
    else if t == d.fileWrite then Some(FileWrite)
    else if t == d.dirSelect then Some(DirSelect)
    else None
  }

  /** The paths a dialog of `kind` returns, opened at `at`; single-answer dialogs are wrapped
      in a one-element list. */
  function Ask(env: Env, kind: DialogKind, multi: bool, at: string): seq<string> {
    match kind
    case FileRead => if multi then env.openFiles(at) else [env.openFile(at)]
    case FileWrite => [env.saveFile(at)]
    case DirSelect => if multi then env.openDirs(at) else [env.openDir(at)]
  }

  /** `not any(map(len, paths))`: every returned path is empty. */
  predicate Cancelled(paths: seq<string>) {
    forall i :: 0 <= i < |paths| ==> |paths[i]| == 0
  }

  /** `pathSelect(pathTag, pathType)` / `path_select(path_tag, path_type)`. */
  function PathSelect(d: Dialect, s: State, env: Env, tag: string, pathType: string): (r: Step)
    ensures StartFolder(d, s.config, tag).None? <==> r.raised == Some(KeyError(d.defaultKey))
    ensures StartFolder(d, s.config, tag).None? ==> r.state == s
    ensures StartFolder(d, s.config, tag).Some? ==>
      var at := Validate(env, StartFolder(d, s.config, tag));
      && r.state.userDataFolder == Some(at)
      && (Classify(d, pathType).None? <==> r.raised == Some(ValueError))
      && (Classify(d, pathType).None? ==> r.state == s.(userDataFolder := Some(at)))
      && (Classify(d, pathType).Some? ==>
            r.raised.None? && r.state.currentPaths == Ask(env, Classify(d, pathType).value, s.multiSelect, at))
    ensures r.raised.None? && Cancelled(r.state.currentPaths) ==>
              r.state.numPaths == 0 && r.state.config == s.config
    ensures r.raised.None? && !Cancelled(r.state.currentPaths) ==>
      var chosen := r.state.currentPaths[0];
      && r.state.numPaths == |r.state.currentPaths| > 0
      && r.state.config == s.config[tag := if Classify(d, pathType) == Some(DirSelect) then chosen else env.dirname(chosen)]
    ensures r.state.history == s.history && r.state.multiSelect == s.multiSelect
    ensures r.raised.None? ==> Consistent(r.state)
    ensures Consistent(s) ==> Consistent(r.state)
  {
    match StartFolder(d, s.config, tag)
    case None => Step(s, Some(KeyError(d.defaultKey)))
    case Some(init) =>
      var at := Validate(env, Some(init));
      var validated := s.(userDataFolder := Some(at));
      match Classify(d, pathType)
      case None => Step(validated, Some(ValueError))
      case Some(kind) =>
        var paths := Ask(env, kind, s.multiSelect, at);
        if Cancelled(paths) then
          Step(validated.(currentPaths := paths, numPaths := 0), None)
        else
          var folder := if kind == DirSelect then paths[0] else env.dirname(paths[0]);
          Step(validated.(currentPaths := paths, numPaths := |paths|, config := s.config[tag := folder]), None)
  }

  /** What `confirm` and `select` do once the dialog has returned: the first chosen folder, or
      the home folder when nothing was chosen. An exception from the dialog passes through. */
  function AfterDialog(env: Env, st: Step): (r: Step)
    requires st.raised.None? ==> Consistent(st.state)
  {
    if st.raised.Some? then st
    else
      var folder := if st.state.numPaths != 0 then st.state.currentPaths[0] else env.home;
      Step(st.state.(userDataFolder := Some(folder)), None)
  }

  /** `selUserDataFolder(folderPath, action, pathTag)` /
      `select_user_data_folder(folder_path, action, path_tag)`. */
  function SelUserDataFolder(d: Dialect, s: State, env: Env, folder: Option<string>, action: string, tag: string)
    : (r: Step)
    ensures Lower(action) == "validate" ==>
              r == Step(s.(userDataFolder := Some(Validate(env, folder))), None)
    ensures Lower(action) == "confirm" && env.isDir(folder.GetOr("")) ==>
              r == Step(s.(userDataFolder := Some(folder.GetOr(""))), None)
    ensures Lower(action) == "select" || (Lower(action) == "confirm" && !env.isDir(folder.GetOr(""))) ==>
      var st := PathSelect(d, s, env, tag, d.dirRequest);
      && r.raised == st.raised
      && (r.raised.Some? ==> r.state == st.state)
      && (r.raised.None? ==> r.state == st.state.(userDataFolder := r.state.userDataFolder)
                             && r.state.userDataFolder.Some?
                             && (st.state.numPaths == 0 ==> r.state.userDataFolder.value == env.home)
                             && (st.state.numPaths != 0 ==> r.state.userDataFolder.value == st.state.currentPaths[0]))
    ensures Lower(action) !in {"validate", "confirm", "select"} ==>
              r == Step(s.(userDataFolder := None), Some(ValueError))
    ensures r.state.history == s.history
    ensures Consistent(s) ==> Consistent(r.state)
  {
    var f := folder.GetOr("");
    var a := Lower(action);
    if a == "validate" then
      Step(s.(userDataFolder := Some(if env.isDir(f) then f else env.home)), None)
    else if a == "confirm" then
      if !env.isDir(f) then AfterDialog(env, PathSelect(d, s, env, tag, d.dirRequest))
      else Step(s.(userDataFolder := Some(f)), None)
    else if a == "select" then
      AfterDialog(env, PathSelect(d, s, env, tag, d.dirRequest))
    else
      Step(s.(userDataFolder := None), Some(ValueError))
  }

  /** A folder dialog for a dialect whose folder request is accepted, single or multiple
      selection: the answer becomes the current paths; a cancel zeroes the count and keeps the
      configuration, otherwise the paths are counted and the first one is remembered. */
  lemma FolderDialog(d: Dialect, s: State, env: Env, tag: string)
    requires Classify(d, d.dirRequest) == Some(DirSelect)
    ensures StartFolder(d, s.config, tag).Some? ==>
      var paths := Ask(env, DirSelect, s.multiSelect, Validate(env, StartFolder(d, s.config, tag)));
      var st := PathSelect(d, s, env, tag, d.dirRequest);
      && st.raised.None?
      && st.state.currentPaths == paths
      && (Cancelled(paths) ==> st.state.numPaths == 0 && st.state.config == s.config)
      && (!Cancelled(paths) ==> st.state.numPaths == |paths| > 0 && st.state.config == s.config[tag := paths[0]])
  {
  }

  /** A single-folder dialog for a dialect whose folder request is accepted: the answer
      becomes the one current path, counted and remembered when it is not empty. */
  lemma SingleFolderDialog(d: Dialect, s: State, env: Env, tag: string)
    requires Classify(d, d.dirRequest) == Some(DirSelect)
    ensures StartFolder(d, s.config, tag).Some? && !s.multiSelect ==>
      var chosen := env.openDir(Validate(env, StartFolder(d, s.config, tag)));
      var st := PathSelect(d, s, env, tag, d.dirRequest);
      && st.raised.None?
      && st.state.currentPaths == [chosen]
      && st.state.numPaths == (if chosen != "" then 1 else 0)
      && st.state.config == (if chosen != "" then s.config[tag := chosen] else s.config)
  {
    if StartFolder(d, s.config, tag).Some? && !s.multiSelect {
      var chosen := env.openDir(Validate(env, StartFolder(d, s.config, tag)));
      assert Cancelled([chosen]) <==> chosen == "" by {
        assert [chosen][0] == chosen;
      }
    }
  }

  /** The glob pattern for files of type `fileType` in `folder`. */
  function FilePattern(folder: string, fileType: string): string {
    folder + "/" + fileType
  }

  /** The matches of every folder, in folder order, duplicates kept (the `extend` loop). */
  function Gather(env: Env, folders: seq<string>, fileType: string): (r: seq<string>)
    ensures forall p :: p in r <==> exists i :: 0 <= i < |folders| && p in env.glob(FilePattern(folders[i], fileType))
    decreases |folders|
  {
    if |folders| == 0 then []
    else
      var init := folders[..|folders| - 1];
      var rest := Gather(env, init, fileType);
      assert forall i :: 0 <= i < |init| ==> init[i] == folders[i];
      rest + env.glob(FilePattern(folders[|folders| - 1], fileType))
  }

  /** A single folder contributes exactly its glob result. */
  lemma GatherOne(env: Env, folder: string, fileType: string)
    ensures Gather(env, [folder], fileType) == env.glob(FilePattern(folder, fileType))
  {
  }

  /** Gathering over two runs of folders concatenates their matches in order, duplicates kept:
      the `extend` loop never reorders or merges what the globs return. */
  lemma {:induction false} GatherAppend(env: Env, f: seq<string>, g: seq<string>, fileType: string)
    ensures Gather(env, f + g, fileType) == Gather(env, f, fileType) + Gather(env, g, fileType)
    decreases |g|
  {
    if |g| == 0 {
      assert f + g == f;
    } else {
      var fg := f + g;
      var last := g[|g| - 1];
      assert fg[..|fg| - 1] == f + g[..|g| - 1];
      assert fg[|fg| - 1] == last;
      GatherAppend(env, f, g[..|g| - 1], fileType);
    }
  }

  /** The module-level `filePathsList(folderList, fileType)` and the static
      `file_paths_list_2`: the sorted matches of all folders, without touching any instance. */
  function Listing(env: Env, folders: seq<string>, fileType: string): (r: seq<string>)
    ensures Sorted(r)
    ensures multiset(r) == multiset(Gather(env, folders, fileType))
    ensures forall p :: p in r <==> exists i :: 0 <= i < |folders| && p in env.glob(FilePattern(folders[i], fileType))
  {
    var all := Gather(env, folders, fileType);
    var r := Sort(all);
    assert forall p :: p in r <==> p in multiset(r);
    assert forall p :: p in all <==> p in multiset(all);
    r
  }

  /** The `filePathsList` / `file_paths_list` methods: the same listing, stored as the current
      paths and counted. */
  function FilePathsList(s: State, env: Env, folders: seq<string>, fileType: string): (r: State)
    ensures Sorted(r.currentPaths) && multiset(r.currentPaths) == multiset(Gather(env, folders, fileType))
    ensures r.numPaths == |r.currentPaths|
    ensures r == s.(currentPaths := r.currentPaths, numPaths := r.numPaths)
  {
    var paths := Sort(Gather(env, folders, fileType));
    s.(currentPaths := paths, numPaths := |paths|)
  }

  /** The method stores exactly what the instance-free listing returns. */
  lemma FilePathsListStoresListing(s: State, env: Env, folders: seq<string>, fileType: string)
    ensures FilePathsList(s, env, folders, fileType).currentPaths == Listing(env, folders, fileType)
  {
    var a := FilePathsList(s, env, folders, fileType).currentPaths;
    var b := Listing(env, folders, fileType);
    SortedUnique(a, b);
  }

  /** The sub-folder pattern for `basePath`: a slash is added only when missing, then the
      any-folder wildcard with its trailing slash. */
  function FolderPattern(base: string): (p: string)
    ensures EndsWith(p, "/*/")
    ensures |p| == |base| + (if EndsWith(base, "/") then 2 else 3)
    ensures p[..|base|] == base
  {
    var b := if EndsWith(base, "/") then base else base + "/";
    b + "*/"
  }

  /** `foldersList(basePath)` / `folders_list(base_path)`: the sub-folders, sorted, counted,
      then each normalised in place (so the stored list need not stay sorted). */
  function FoldersList(s: State, env: Env, base: string): (r: State)
    ensures
      var found := Sort(env.glob(FolderPattern(base)));
      && r.numPaths == |r.currentPaths| == |found|
      && (forall i :: 0 <= i < |found| ==> r.currentPaths[i] == env.normpath(found[i]))
    ensures r == s.(currentPaths := r.currentPaths, numPaths := r.numPaths)
  {
    var found := Sort(env.glob(FolderPattern(base)));
    s.(currentPaths := seq(|found|, i requires 0 <= i < |found| => env.normpath(found[i])), numPaths := |found|)
  }
}

=== FILE: servos.dfy ===
/** The `Servos` object: a pin-to-slot map kept in step with the firmware's servo slots.
    A pin is unattached (absent from the map) or attached to the slot number the firmware
    returned for it. */
module Servos {
  import opened Common
  import opened Text
  import opened Frames
  import opened Transport
  import opened Arduino

  /** The pulse range `attach` uses when none is given (and `read` always uses). */
  const DefaultMin: int := 544
  const DefaultMax: int := 2400

  function AttachFrame(pin: int, lo: int, hi: int): string {
    BuildCmdStr("sva", [IntToString(pin), IntToString(lo), IntToString(hi)])
  }

  function SlotFrame(keyword: string, slot: int): string {
    BuildCmdStr(keyword, [IntToString(slot)])
  }

  function SlotValueFrame(keyword: string, slot: int, value: int): string {
    BuildCmdStr(keyword, [IntToString(slot), IntToString(value)])
  }

  /** A raw reply `attach` accepts: after the CRLF strip it is non-empty and all digits. */
  predicate SlotReply(raw: string) {
    IsDigits(StripCrlf(raw))
  }

  /** The position of the first reply `attach` accepts, if any. */
  function FirstSlotReply(replies: seq<string>): (r: Option<nat>)
    ensures r.Some? ==> r.value < |replies| && SlotReply(replies[r.value])
                        && forall j :: 0 <= j < r.value ==> !SlotReply(replies[j])
    ensures r.None? ==> forall j :: 0 <= j < |replies| ==> !SlotReply(replies[j])
  {
    if |replies| == 0 then None
    else if SlotReply(replies[0]) then Some(0)
    else
      match FirstSlotReply(replies[1..])
      case None => None
      case Some(k) => Some(k + 1)
  }

  function Repeat(frame: string, n: nat): (r: seq<string>)
    ensures |r| == n && forall i :: 0 <= i < n ==> r[i] == frame
  {
    seq(n, _ => frame)
  }

  /** What `attach(pin, lo, hi)` does, in closed form. With `k` rejected replies before the
      first all-digit one it sends the same `sva` frame `k + 1` times, pulses DTR `k` times,
      consumes `k + 1` replies, binds the pin to the slot the accepted reply names (replacing
      any earlier binding of that pin) and returns 1. A write that raises ends it at once;
      a reply queue without an acceptable line leaves it looping for ever. */
  function AttachSpec(b: Board, pin: int, lo: int, hi: int): (r: Result<(Board, int), Fault>)
    ensures r.Err? <==> !Writable(b.port) || FirstSlotReply(b.port.replies).None?
    ensures r.Err? && !Writable(b.port) ==> r.error == PortError
    ensures r.Err? && Writable(b.port) ==> r.error == Hang
    ensures r.Ok? ==>
      var k := FirstSlotReply(b.port.replies).value;
      var (b', ret) := r.value;
      && ret == 1
      && b'.port.sent == b.port.sent + Repeat(AttachFrame(pin, lo, hi), k + 1)
      && b'.port.resets == b.port.resets + k
      && b'.port.replies == b.port.replies[k + 1..]
      && b'.port.isOpen && b'.port.writeFault == b.port.writeFault
      && b'.servos.Keys == b.servos.Keys + {pin}
      && b'.servos[pin] == DigitsValue(StripCrlf(b.port.replies[k]))
      && (forall q :: q in b.servos && q != pin ==> b'.servos[q] == b.servos[q])
      && b'.ssConnected == b.ssConnected
  {
    if !Writable(b.port) then Err(PortError)
    else
      match FirstSlotReply(b.port.replies)
      case None => Err(Hang)
      case Some(k) =>
        var slot := DigitsValue(StripCrlf(b.port.replies[k]));
        var port := b.port.(sent := b.port.sent + Repeat(AttachFrame(pin, lo, hi), k + 1),
                            replies := b.port.replies[k + 1..],
                            resets := b.port.resets + k);
        Ok((b.(port := port, servos := b.servos[pin := slot]), 1))
  }

  /** The closed form agrees with the loop when the `i`-th reply is the first acceptable one. */
  lemma AttachAcceptsAt(b: Board, pin: int, lo: int, hi: int, i: nat)
    requires Writable(b.port) && i < |b.port.replies|
    requires forall j :: 0 <= j < i ==> !SlotReply(b.port.replies[j])
    requires SlotReply(b.port.replies[i])
    ensures AttachSpec(b, pin, lo, hi)
            == Ok((b.(port := b.port.(sent := b.port.sent + Repeat(AttachFrame(pin, lo, hi), i + 1),
                                      replies := b.port.replies[i + 1..],
                                      resets := b.port.resets + i),
                      servos := b.servos[pin := DigitsValue(StripCrlf(b.port.replies[i]))]), 1))
  {
    var k := FirstSlotReply(b.port.replies);
    assert k == Some(i);
  }

  /** The closed form agrees with the loop when the reply queue runs out without an acceptable
      reply: every later read times out, so the source never leaves its loop. */
  lemma AttachHangsAt(b: Board, pin: int, lo: int, hi: int, i: nat)
    requires Writable(b.port) && i == |b.port.replies|
    requires forall j :: 0 <= j < i ==> !SlotReply(b.port.replies[j])
    ensures AttachSpec(b, pin, lo, hi) == Err(Hang)
  {
    assert FirstSlotReply(b.port.replies).None?;
  }

  /** `attach(pin, min, max)`: the source's resend-until-numeric loop, run against the finite
      reply queue. */
  method Attach(b: Board, pin: int, lo: int, hi: int) returns (r: Result<(Board, int), Fault>)
    ensures r == AttachSpec(b, pin, lo, hi)
  {
    var frame := AttachFrame(pin, lo, hi);
    var p := b.port;
    var i := 0;
    while true
      invariant 0 <= i <= |b.port.replies|
      invariant p == b.port.(sent := b.port.sent + Repeat(frame, i),
                             replies := b.port.replies[i..],
                             resets := b.port.resets + i)
      invariant i > 0 ==> Writable(b.port)
      invariant forall j :: 0 <= j < i ==> !SlotReply(b.port.replies[j])
      decreases |b.port.replies| - i
    {
      var w := Send(p, frame);
      if w.Err? {
        return Err(w.error);
      }
      var (q, line) := ReadLine(w.value).value;
      var sentNow := b.port.sent + Repeat(frame, i) + [frame];
      assert sentNow == b.port.sent + Repeat(frame, i + 1);
      if |p.replies| == 0 {
        // Every further read times out with an empty line: the source never leaves the loop.
        AttachHangsAt(b, pin, lo, hi, i);
        return Err(Hang);
      }
      assert b.port.replies[i..][0] == b.port.replies[i];
      assert b.port.replies[i..][1..] == b.port.replies[i + 1..];
      if IsDigits(line) {
        AttachAcceptsAt(b, pin, lo, hi, i);
        return Ok((b.(port := q, servos := b.servos[pin := DigitsValue(line)]), 1));
      }
      p := PulseReset(q);
      i := i + 1;
    }
  }

  /** `detach(pin)`: `KeyError` on an unattached pin, before anything is sent; otherwise a
      best-effort `svd` with the pin's slot, and exactly that pin's binding is dropped. */
  function Detach(b: Board, pin: int): (r: Result<Board, Fault>)
    ensures r.Err? <==> pin !in b.servos
    ensures r.Err? ==> r.error == KeyError(pin)
    ensures r.Ok? ==>
      && r.value.servos == b.servos - {pin}
      && r.value.port.sent == b.port.sent + (if Writable(b.port) then [SlotFrame("svd", b.servos[pin])] else [])
      && r.value.port == b.port.(sent := r.value.port.sent)
      && r.value.ssConnected == b.ssConnected
  {
    if pin !in b.servos then Err(KeyError(pin))
    else Ok(b.(port := SendBestEffort(b.port, SlotFrame("svd", b.servos[pin])), servos := b.servos - {pin}))
  }

  /** The shared shape of `write` and `writeMicroseconds`: look the slot up (`KeyError` first),
      then send `keyword slot value`, letting a failed write raise. */
  function SlotCommand(b: Board, pin: int, keyword: string, value: int): (r: Result<Board, Fault>)
    ensures pin !in b.servos ==> r == Err(KeyError(pin))
    ensures pin in b.servos ==> (r.Ok? <==> Writable(b.port))
    ensures r.Err? && pin in b.servos ==> r.error == PortError
    ensures r.Ok? ==>
      && r.value.servos == b.servos && r.value.ssConnected == b.ssConnected
      && r.value.port == b.port.(sent := b.port.sent + [SlotValueFrame(keyword, b.servos[pin], value)])
  {
    if pin !in b.servos then Err(KeyError(pin))
    else
      match Send(b.port, SlotValueFrame(keyword, b.servos[pin], value))
      case Err(e) => Err(e)
      case Ok(q) => Ok(b.(port := q))
  }

  /** `write(pin, angle)` */
  function Write(b: Board, pin: int, angle: int): (r: Result<Board, Fault>)
    ensures pin !in b.servos ==> r == Err(KeyError(pin))
    ensures pin in b.servos ==> (r.Ok? <==> Writable(b.port))
    ensures r.Ok? ==> r.value == b.(port := b.port.(sent := r.value.port.sent))
    ensures r.Ok? ==> r.value.servos == b.servos
                      && r.value.port.sent == b.port.sent + [SlotValueFrame("svw", b.servos[pin], angle)]
  {
    SlotCommand(b, pin, "svw", angle)
  }

  /** `writeMicroseconds(pin, uS)` */
  function WriteMicroseconds(b: Board, pin: int, us: int): (r: Result<Board, Fault>)
    ensures pin !in b.servos ==> r == Err(KeyError(pin))
    ensures pin in b.servos ==> (r.Ok? <==> Writable(b.port))
    ensures r.Ok? ==> r.value == b.(port := b.port.(sent := r.value.port.sent))
    ensures r.Ok? ==> r.value.servos == b.servos
                      && r.value.port.sent == b.port.sent + [SlotValueFrame("svwm", b.servos[pin], us)]
  {
    SlotCommand(b, pin, "svwm", us)
  }

  /** `read(pin)`: attaches an unattached pin first, with the default range, then asks for the
      position with a best-effort `svr`; a reply `int()` rejects gives None. `toInt` stands for
      Python's `int` applied to the reply bytes. */
  function Read(b: Board, pin: int, toInt: string -> Option<int>): (r: Result<(Board, Option<int>), Fault>)
    ensures pin in b.servos ==> (r.Err? <==> !b.port.isOpen)
    ensures pin in b.servos && r.Ok? ==>
      && r.value.0.servos == b.servos
      && r.value.0.port.resets == b.port.resets
      && r.value.0.port.sent == b.port.sent + (if Writable(b.port) then [SlotFrame("svr", b.servos[pin])] else [])
      && r.value.1 == toInt(NextReply(b.port))
    ensures pin in b.servos && r.Ok? ==>
      r.value.0 == b.(port := b.port.(sent := r.value.0.port.sent, replies := Remaining(b.port)))
    ensures pin !in b.servos && r.Ok? ==> FirstSlotReply(b.port.replies).Some? && pin in r.value.0.servos
    ensures pin !in b.servos && r.Ok? ==>
      var k := FirstSlotReply(b.port.replies).value;
      var slot := r.value.0.servos[pin];
      && r.value.0.servos == b.servos[pin := slot]
      && r.value.0.port.resets == b.port.resets + k
      && r.value.0.port.sent == b.port.sent + Repeat(AttachFrame(pin, DefaultMin, DefaultMax), k + 1)
                                            + [SlotFrame("svr", slot)]
    ensures pin !in b.servos && r.Ok? ==>
      var k := FirstSlotReply(b.port.replies).value;
      && r.value.0.servos[pin] == DigitsValue(StripCrlf(b.port.replies[k]))
      && r.value.1 == toInt(if k + 1 < |b.port.replies| then StripCrlf(b.port.replies[k + 1]) else "")
      && r.value.0 == b.(servos := r.value.0.servos,
                         port := b.port.(sent := r.value.0.port.sent, resets := r.value.0.port.resets,
                                         replies := if k + 1 < |b.port.replies| then b.port.replies[k + 2..] else []))
    ensures pin !in b.servos ==> (r.Err? <==> AttachSpec(b, pin, DefaultMin, DefaultMax).Err?)
    ensures pin !in b.servos && r.Err? ==> r.error == AttachSpec(b, pin, DefaultMin, DefaultMax).error
  {
    var attached: Result<(Board, int), Fault> :=
      if pin in b.servos then Ok((b, 1)) else AttachSpec(b, pin, DefaultMin, DefaultMax);
    match attached
    case Err(e) => Err(e)
    case Ok((b1, _)) =>
      match Exchange(b1.port, SlotFrame("svr", b1.servos[pin]))
      case Err(e) => Err(e)
      case Ok((q, line)) => Ok((b1.(port := q), toInt(line)))
  }

  /** The servo state machine's round trip: after a successful attach, detach returns the map
      to the original bindings minus the pin, and a second detach raises `KeyError`. */
  lemma DetachUndoesAttach(b: Board, pin: int, lo: int, hi: int)
    requires AttachSpec(b, pin, lo, hi).Ok?
    ensures
      var attached := AttachSpec(b, pin, lo, hi).value.0;
      && Detach(attached, pin).Ok?
      && Detach(attached, pin).value.servos == b.servos - {pin}
      && Detach(Detach(attached, pin).value, pin) == Err(KeyError(pin))
  {
  }

  /** With `k` rejected replies ahead of an acceptable one, attach retries exactly `k` times:
      `k` DTR pulses and `k + 1` copies of its frame. */
  lemma AttachRetriesOncePerRejectedReply(b: Board, pin: int, lo: int, hi: int, rejected: seq<string>, accepted: string)
    requires Writable(b.port)
    requires forall j :: 0 <= j < |rejected| ==> !SlotReply(rejected[j])
    requires SlotReply(accepted)
    requires b.port.replies == rejected + [accepted]
    ensures AttachSpec(b, pin, lo, hi).Ok?
    ensures AttachSpec(b, pin, lo, hi).value.0.port.resets == b.port.resets + |rejected|
    ensures AttachSpec(b, pin, lo, hi).value.0.port.sent == b.port.sent + Repeat(AttachFrame(pin, lo, hi), |rejected| + 1)
    ensures AttachSpec(b, pin, lo, hi).value.0.servos[pin] == DigitsValue(StripCrlf(accepted))
  {
    assert b.port.replies[|rejected|] == accepted;
    assert forall j :: 0 <= j < |rejected| ==> b.port.replies[j] == rejected[j];
  }

  /** The first half of the session below: a firmware answering `1` binds pin 9 to slot 1,
      after one `sva` frame and without any reset. */
  lemma SlotOneAttached(p: Port)
    requires Writable(p) && p.replies == ["1\r\n"]
    ensures AttachSpec(Board(p, map[], false), 9, DefaultMin, DefaultMax)
            == Ok((Board(p.(sent := p.sent + [AttachFrame(9, DefaultMin, DefaultMax)], replies := []), map[9 := 1], false), 1))
  {
    StripCrlfLine("1");
    assert DigitsValue("1") == 1 by { assert "1"[..0] == ""; }
    assert SlotReply(p.replies[0]);
    var frame := AttachFrame(9, DefaultMin, DefaultMax);
    AttachAcceptsAt(Board(p, map[], false), 9, DefaultMin, DefaultMax, 0);
    assert Repeat(frame, 1) == [frame];
    assert p.replies[1..] == [];
    var empty: map<int, int> := map[];
    assert empty[9 := 1] == map[9 := 1];
  }

  /** The two numerals of the session below. */
  lemma NumeralsOfSession()
    ensures IntToString(1) == "1" && IntToString(90) == "90"
  {
    assert NatToString(9) == "9";
  }

  /** The frame that writes 90 degrees to slot 1. */
  lemma WriteFrameOfSession()
    ensures SlotValueFrame("svw", 1, 90) == "@svw%1%90$!"
  {
    NumeralsOfSession();
    var args := [IntToString(1), IntToString(90)];
    assert args == ["1", "90"];
    assert args[1..] == ["90"];
    assert Join(args, '%') == "1%90";
    assert BuildCmdStr("svw", args) == "@svw" + "%" + "1%90" + "$!";
  }

  /** The second half: writing 90 degrees to the pin bound to slot 1 sends `@svw%1%90$!`. */
  lemma NinetyToSlotOne(b: Board)
    requires Writable(b.port) && b.servos == map[9 := 1]
    ensures Write(b, 9, 90) == Ok(b.(port := b.port.(sent := b.port.sent + ["@svw%1%90$!"])))
  {
    WriteFrameOfSession();
    assert b.servos[9] == 1;
  }

  /** The attach/write exchange of a concrete session: the firmware answers `1` to the attach of
      pin 9, and writing 90 degrees to pin 9 then sends `@svw%1%90$!`. */
  lemma AttachThenWriteScenario(p: Port)
    requires Writable(p) && p.replies == ["1\r\n"]
    ensures
      var attached := AttachSpec(Board(p, map[], false), 9, DefaultMin, DefaultMax);
      && attached.Ok?
      && attached.value.0.servos == map[9 := 1]
      && Write(attached.value.0, 9, 90).Ok?
      && Write(attached.value.0, 9, 90).value.port.sent == p.sent + [AttachFrame(9, 544, 2400), "@svw%1%90$!"]
  {
    SlotOneAttached(p);
    var attached := Board(p.(sent := p.sent + [AttachFrame(9, DefaultMin, DefaultMax)], replies := []), map[9 := 1], false);
    NinetyToSlotOne(attached);
  }
}

=== FILE: softserial.dfy ===
/** The `SoftwareSerial` object: a `connected` flag set by `begin`, guarding `write` and
    `read`. */
module SoftSerial {
  import opened Common
  import opened Text
  import opened Frames
  import opened Transport
  import opened Arduino

  /** The two Python value kinds the replies are compared across. Python 3 never considers a
      `bytes` value equal to a `str` value, whatever their characters. */
  datatype PyText = PyBytes(bytes: string) | PyStr(text: string)

  function PyEquals(a: PyText, b: PyText): bool {
    match (a, b)
    case (PyBytes(x), PyBytes(y)) => x == y
    case (PyStr(x), PyStr(y)) => x == y
    case _ => false
  }

  const Acknowledge: string := "ss OK"

  function BeginFrame(tx: int, rx: int, baud: int): string {
    BuildCmdStr("ss", [IntToString(tx), IntToString(rx), IntToString(baud)])
  }

  /** `begin(p1, p2, baud)` as written: best-effort `ss` frame, one reply, and the reply bytes
      compared with the text `"ss OK"`. The flag always ends equal to the returned value. */
  function Begin(b: Board, tx: int, rx: int, baud: int): (r: Result<(Board, bool), Fault>)
    ensures r.Err? <==> !b.port.isOpen
    ensures r.Ok? ==> r.value.0.ssConnected == r.value.1
    ensures r.Ok? ==> r.value.0.servos == b.servos
                      && r.value.0.port.sent == b.port.sent + (if Writable(b.port) then [BeginFrame(tx, rx, baud)] else [])
    ensures r.Ok? ==>
      r.value.0 == b.(port := b.port.(sent := r.value.0.port.sent, replies := Remaining(b.port)), ssConnected := r.value.1)
  {
    match Exchange(b.port, BeginFrame(tx, rx, baud))
    case Err(e) => Err(e)
    case Ok((q, line)) =>
      var ok := PyEquals(PyBytes(line), PyStr(Acknowledge));
      Ok((b.(port := q, ssConnected := ok), ok))
  }

  /** As written, `begin` can never report a connection, even when the firmware acknowledges
      with exactly `ss OK`. */
  lemma BeginNeverConnects(b: Board, tx: int, rx: int, baud: int)
    requires b.port.isOpen
    ensures Begin(b, tx, rx, baud).Ok?
    ensures !Begin(b, tx, rx, baud).value.1 && !Begin(b, tx, rx, baud).value.0.ssConnected
  {
  }

  /** `begin` as evidently intended: the decoded reply compared with `"ss OK"`. */
  function BeginIntended(b: Board, tx: int, rx: int, baud: int): (r: Result<(Board, bool), Fault>)
    ensures r.Err? <==> !b.port.isOpen
    ensures r.Ok? ==> r.value.0.ssConnected == r.value.1
    ensures r.Ok? ==> (r.value.1 <==> NextReply(b.port) == Acknowledge)
    ensures r.Ok? ==> r.value.0.port.sent == b.port.sent + (if Writable(b.port) then [BeginFrame(tx, rx, baud)] else [])
    ensures r.Ok? ==>
      r.value.0 == b.(port := b.port.(sent := r.value.0.port.sent, replies := Remaining(b.port)), ssConnected := r.value.1)
  {
    match Exchange(b.port, BeginFrame(tx, rx, baud))
    case Err(e) => Err(e)
    case Ok((q, line)) =>
      var ok := PyEquals(PyStr(line), PyStr(Acknowledge));
      Ok((b.(port := q, ssConnected := ok), ok))
  }

  /** An acknowledging firmware connects under the intended comparison but not as written. */
  lemma AcknowledgementIgnored(b: Board, tx: int, rx: int, baud: int)
    requires b.port.isOpen && b.port.replies == ["ss OK\r\n"]
    ensures BeginIntended(b, tx, rx, baud).Ok? && BeginIntended(b, tx, rx, baud).value.1
    ensures Begin(b, tx, rx, baud).Ok? && !Begin(b, tx, rx, baud).value.1
  {
    StripCrlfLine(Acknowledge);
    assert NextReply(b.port) == Acknowledge;
    BeginNeverConnects(b, tx, rx, baud);
  }

  /** `write(data)`: `False` without any exchange when not connected; otherwise a best-effort
      `sw` frame and one reply, after which the as-written comparison fails and the method
      falls off its end, returning None. */
  function Write(b: Board, data: string): (r: Result<(Board, Option<bool>), Fault>)
    ensures !b.ssConnected ==> r == Ok((b, Some(false)))
    ensures b.ssConnected ==> (r.Err? <==> !b.port.isOpen)
    ensures b.ssConnected && r.Ok? ==>
      && r.value.1 == None
      && r.value.0.port.sent == b.port.sent + (if Writable(b.port) then [BuildCmdStr("sw", [data])] else [])
      && r.value.0.servos == b.servos && r.value.0.ssConnected == b.ssConnected
    ensures b.ssConnected && r.Ok? ==>
      r.value.0 == b.(port := b.port.(sent := r.value.0.port.sent, replies := Remaining(b.port)))
  {
    if !b.ssConnected then Ok((b, Some(false)))
    else
      match Exchange(b.port, BuildCmdStr("sw", [data]))
      case Err(e) => Err(e)
      case Ok((q, line)) =>
        Ok((b.(port := q), if PyEquals(PyBytes(line), PyStr(Acknowledge)) then Some(true) else None))
  }

  /** `write(data)` with the decoded reply compared: `True` exactly on the acknowledgement. */
  function WriteIntended(b: Board, data: string): (r: Result<(Board, Option<bool>), Fault>)
    ensures !b.ssConnected ==> r == Ok((b, Some(false)))
    ensures b.ssConnected ==> (r.Err? <==> !b.port.isOpen)
    ensures b.ssConnected && r.Ok? ==>
      && (r.value.1 == Some(true) <==> NextReply(b.port) == Acknowledge)
      && (r.value.1 != Some(true) ==> r.value.1 == None)
      && r.value.0.port.sent == b.port.sent + (if Writable(b.port) then [BuildCmdStr("sw", [data])] else [])
    ensures b.ssConnected && r.Ok? ==>
      r.value.0 == b.(port := b.port.(sent := r.value.0.port.sent, replies := Remaining(b.port)))
  {
    if !b.ssConnected then Ok((b, Some(false)))
    else
      match Exchange(b.port, BuildCmdStr("sw", [data]))
      case Err(e) => Err(e)
      case Ok((q, line)) =>
        Ok((b.(port := q), if PyEquals(PyStr(line), PyStr(Acknowledge)) then Some(true) else None))
  }

  /** An acknowledged software-serial write reports True under the intended comparison and
      None as written; both send the same frame. */
  lemma WriteAcknowledgementIgnored(b: Board, data: string)
    requires b.ssConnected && b.port.isOpen && b.port.replies == ["ss OK\r\n"]
    ensures WriteIntended(b, data).Ok? && WriteIntended(b, data).value.1 == Some(true)
    ensures Write(b, data).Ok? && Write(b, data).value.1 == None
    ensures Write(b, data).value.0 == WriteIntended(b, data).value.0
  {
    StripCrlfLine(Acknowledge);
    assert NextReply(b.port) == Acknowledge;
  }

  /** What `read()` returns: the reply bytes, None, or `False`. */
  datatype ReadValue = Bytes(data: string) | NoValue | FalseValue

  /** `read()`: `False` when not connected; otherwise an `sr` frame whose write may raise, and
      the reply if it is non-empty, else None. */
  function Read(b: Board): (r: Result<(Board, ReadValue), Fault>)
    ensures !b.ssConnected ==> r == Ok((b, FalseValue))
    ensures b.ssConnected ==> (r.Err? <==> !Writable(b.port))
    ensures b.ssConnected && r.Ok? ==>
      && r.value.0.port.sent == b.port.sent + [BuildCmdStr("sr", [])]
      && (r.value.1 == NoValue <==> NextReply(b.port) == "")
      && (r.value.1.Bytes? ==> r.value.1.data == NextReply(b.port))
    ensures b.ssConnected && r.Ok? ==>
      r.value.0 == b.(port := b.port.(sent := r.value.0.port.sent, replies := Remaining(b.port)))
  {
    if !b.ssConnected then Ok((b, FalseValue))
    else
      match Send(b.port, BuildCmdStr("sr", []))
      case Err(e) => Err(e)
      case Ok(q) =>
        match ReadLine(q)
        case Err(e) => Err(e)
        case Ok((q', line)) => Ok((b.(port := q'), if line != "" then Bytes(line) else NoValue))
  }

  /** `write` consumes the firmware's answer to `sw` itself, so a `read` right after it returns
      the line after that answer; both frames go out in order and the board stays connected. */
  lemma WriteThenRead(b: Board, data: string)
    requires b.ssConnected && Writable(b.port) && |b.port.replies| >= 2
    ensures Write(b, data).Ok? && Read(Write(b, data).value.0).Ok?
    ensures
      var (b', v) := Read(Write(b, data).value.0).value;
      && b' == b.(port := b.port.(sent := b.port.sent + [BuildCmdStr("sw", [data]), BuildCmdStr("sr", [])],
                                 replies := b.port.replies[2..]))
      && (v == NoValue <==> StripCrlf(b.port.replies[1]) == "")
      && (v.Bytes? ==> v.data == StripCrlf(b.port.replies[1]))
  {
  }
}

=== FILE: text.dfy ===
/** Character-level helpers the host code relies on: ASCII lower-casing, `%`-joining and
    splitting, the CRLF strip applied to every reply, and decimal rendering of integers. */
module Text {
  import opened Common

  function LowerChar(c: char): char {
    if 'A' <= c <= 'Z' then (c as int + 32) as char else c
  }

  /** `str.lower()` restricted to ASCII letters. */
  function Lower(s: string): (r: string)
    ensures |r| == |s|
    ensures forall i :: 0 <= i < |s| ==> r[i] == LowerChar(s[i])
  {
    seq(|s|, i requires 0 <= i < |s| => LowerChar(s[i]))
  }

  predicate EndsWith(s: string, suffix: string) {
    |suffix| <= |s| && s[|s| - |suffix|..] == suffix
  }

  /** `sep.join(fields)` */
  function Join(fields: seq<string>, sep: char): string {
    if |fields| == 0 then ""
    else if |fields| == 1 then fields[0]
    else fields[0] + [sep] + Join(fields[1..], sep)
  }

  /** `s.split(sep)`: the maximal separator-free pieces, always at least one. */
  function Split(s: string, sep: char): (fields: seq<string>)
    ensures |fields| >= 1
    decreases |s|
  {
    if |s| == 0 then [""]
    else if s[0] == sep then [""] + Split(s[1..], sep)
    else
      var rest := Split(s[1..], sep);
      [[s[0]] + rest[0]] + rest[1..]
  }

  lemma {:induction false} SplitNoSeparator(s: string, sep: char)
    requires sep !in s
    ensures Split(s, sep) == [s]
    decreases |s|
  {
    if |s| > 0 {
      SplitNoSeparator(s[1..], sep);
      assert [s[0]] + s[1..] == s;
    }
  }

  lemma {:induction false} SplitAfterField(a: string, b: string, sep: char)
    requires sep !in a
    ensures Split(a + [sep] + b, sep) == [a] + Split(b, sep)
    decreases |a|
  {
    var s := a + [sep] + b;
    if |a| == 0 {
      assert s[0] == sep && s[1..] == b;
    } else {
      assert s[0] == a[0];
      assert s[1..] == a[1..] + [sep] + b;
      SplitAfterField(a[1..], b, sep);
      assert [a[0]] + a[1..] == a;
    }
  }

  /** Splitting undoes joining whenever no field contains the separator. */
  lemma {:induction false} SplitJoin(fields: seq<string>, sep: char)
    requires |fields| >= 1
    requires forall i :: 0 <= i < |fields| ==> sep !in fields[i]
    ensures Split(Join(fields, sep), sep) == fields
    decreases |fields|
  {
    if |fields| == 1 {
      SplitNoSeparator(fields[0], sep);
    } else {
      SplitJoin(fields[1..], sep);
      SplitAfterField(fields[0], Join(fields[1..], sep), sep);
      assert [fields[0]] + fields[1..] == fields;
    }
  }

  /** Every character of a join is the separator or a character of some field. */
  lemma {:induction false} JoinChars(fields: seq<string>, sep: char, c: char)
    requires c in Join(fields, sep)
    ensures c == sep || exists i :: 0 <= i < |fields| && c in fields[i]
    decreases |fields|
  {
    if |fields| > 1 {
      var tail := Join(fields[1..], sep);
      assert Join(fields, sep) == fields[0] + [sep] + tail;
      if c in fields[0] {
      } else if c == sep {
      } else {
        assert c in tail;
        JoinChars(fields[1..], sep, c);
        var i :| 0 <= i < |fields[1..]| && c in fields[1..][i];
        assert c in fields[i + 1];
      }
    }
  }

  /** `s.replace("\r\n", "")`: removes every CRLF pair, scanning left to right. */
  function StripCrlf(s: string): (r: string)
    ensures |r| <= |s|
    decreases |s|
  {
    if |s| < 2 then s
    else if s[0] == '\r' && s[1] == '\n' then StripCrlf(s[2..])
    else [s[0]] + StripCrlf(s[1..])
  }

  /** A line as the firmware sends it (text, then CRLF) strips back to its text, and text
      that carries no line feed is left alone. */
  lemma {:induction false} StripCrlfLine(line: string)
    requires '\n' !in line
    ensures StripCrlf(line + "\r\n") == line
    ensures StripCrlf(line) == line
    decreases |line|
  {
    var s := line + "\r\n";
    if |line| == 0 {
      assert s == "\r\n";
      assert s[2..] == "";
    } else {
      assert s[0] == line[0];
      assert s[1] != '\n' by {
        if |line| >= 2 { assert s[1] == line[1]; } else { assert s[1] == '\r'; }
      }
      assert s[1..] == line[1..] + "\r\n";
      StripCrlfLine(line[1..]);
      assert [line[0]] + line[1..] == line;
      if |line| >= 2 {
        assert line[1] != '\n';
      }
    }
  }

  predicate AllDigits(s: string) {
    forall i :: 0 <= i < |s| ==> '0' <= s[i] <= '9'
  }

  /** `bytes.isdigit()`: non-empty and made of ASCII digits only. */
  predicate IsDigits(s: string) {
    |s| > 0 && AllDigits(s)
  }

  /** The value of a string of decimal digits (`int(s)` for such strings). */
  function DigitsValue(s: string): nat
    requires AllDigits(s)
    decreases |s|
  {
    if |s| == 0 then 0
    else DigitsValue(s[..|s| - 1]) * 10 + (s[|s| - 1] as int - '0' as int)
  }

  function DigitChar(d: nat): char
    requires d < 10
  {
    ('0' as int + d) as char
  }

  /** `str(n)` for a natural number: its decimal digits, no leading zero. */
  function NatToString(n: nat): (r: string)
    ensures IsDigits(r)
    ensures DigitsValue(r) == n
    ensures |r| > 1 ==> r[0] != '0'
    decreases n
  {
    if n < 10 then [DigitChar(n)]
    else
      var r := NatToString(n / 10) + [DigitChar(n % 10)];
      assert r[..|r| - 1] == NatToString(n / 10);
      r
  }

  /** `str(i)` for an integer: a minus sign for negatives, then the digits. */
  function IntToString(i: int): (r: string)
    ensures |r| >= 1
    ensures forall k :: 0 <= k < |r| ==> r[k] == '-' || '0' <= r[k] <= '9'
  {
    if i < 0 then "-" + NatToString(-i) else NatToString(i)
  }

  /** Reads an optionally negative decimal integer back; None for anything else. This is the
      reading the firmware applies to a rendered argument. */
  function DecimalValue(s: string): Option<int> {
    if |s| > 0 && s[0] == '-' && IsDigits(s[1..]) then Some(-(DigitsValue(s[1..]) as int))
    else if IsDigits(s) then Some(DigitsValue(s))
    else None
  }

  lemma DecimalRoundTrip(i: int)
    ensures DecimalValue(IntToString(i)) == Some(i)
  {
    if i < 0 {
      assert IntToString(i)[1..] == NatToString(-i);
    } else {
      assert IntToString(i)[0] != '-';
    }
  }
}

=== FILE: transport.dfy ===
/** The serial connection as a pure state: whether it is open, whether writes to it raise,
    the frames written so far, the raw lines the device will answer with (one per read),
    and how many DTR reset pulses were issued. */
module Transport {
  import opened Common
  import opened Text

  /** What the host code can raise. `Hang` marks the one loop of the source that never returns
      (a servo attach whose replies never become a slot number). */
  datatype Fault =
    | PortError
    | KeyError(pin: int)
    | ValueError(message: string)
    | AttributeError
    | UnicodeDecodeError
    | Hang

  datatype Port = Port(isOpen: bool, writeFault: bool, sent: seq<string>, replies: seq<string>, resets: nat)

  /** `write` and `flush` succeed: the port is open and the device accepts output. */
  predicate Writable(p: Port) {
    p.isOpen && !p.writeFault
  }

  /** The next line `readline()` yields after the CRLF strip; an exhausted queue is a read
      timeout, which yields the empty line. */
  function NextReply(p: Port): string {
    if |p.replies| == 0 then "" else StripCrlf(p.replies[0])
  }

  function Remaining(p: Port): seq<string> {
    if |p.replies| == 0 then [] else p.replies[1..]
  }

  /** `sr.write(frame); sr.flush()` with the exception left to the caller. */
  function Send(p: Port, frame: string): (r: Result<Port, Fault>)
    ensures r.Ok? <==> Writable(p)
    ensures r.Ok? ==> r.value.sent == p.sent + [frame] && r.value.replies == p.replies
  {
    if Writable(p) then Ok(p.(sent := p.sent + [frame])) else Err(PortError)
  }

  /** The same inside `try: ... except: pass`: a failed write leaves the port as it was. */
  function SendBestEffort(p: Port, frame: string): (q: Port)
    ensures q.sent == p.sent + (if Writable(p) then [frame] else [])
    ensures q == p.(sent := q.sent)
  {
    match Send(p, frame)
    case Ok(q) => q
    case Err(_) => p
  }

  /** `sr.readline().replace(b"\r\n", b"")`; reading a closed port raises. */
  function ReadLine(p: Port): (r: Result<(Port, string), Fault>)
    ensures r.Err? <==> !p.isOpen
    ensures r.Ok? ==> r.value.0 == p.(replies := Remaining(p)) && r.value.1 == NextReply(p)
  {
    if !p.isOpen then Err(PortError)
    else if |p.replies| == 0 then Ok((p, ""))
    else Ok((p.(replies := p.replies[1..]), StripCrlf(p.replies[0])))
  }

  /** One best-effort request/response exchange: the write may fail silently, the read may not. */
  function Exchange(p: Port, frame: string): Result<(Port, string), Fault> {
    ReadLine(SendBestEffort(p, frame))
  }

  /** `setDTR(False); sleep(1); flushInput(); setDTR(True)` on an open port. */
  function PulseReset(p: Port): Port {
    p.(resets := p.resets + 1)
  }

  /** `if sr.isOpen(): sr.flush(); sr.close()` */
  function Close(p: Port): Port {
    if p.isOpen then p.(isOpen := false) else p
  }
}
